=== FILE: README.md ===
# v3trading core in Dafny

A model of the sequential logic under the v3trading application's HTTP and UI
plumbing, with proofs about it. The model covers two sides.

The backend (FastAPI):
- the in-memory trade list and its paginated, timestamp-sorted listing;
- trade lookup, creation and cancellation;
- the position list with lookup and close;
- the in-memory user dictionary, with the sign-in get-or-create step;
- the Pydantic field constraints, written as validity predicates.

The browser (Vue/Pinia):
- the trading store and the authentication store, each action being a pure
  function from the state it starts in and the settled outcome of its service
  call to the state it leaves;
- the layout store;
- the older layout composable, with its saved-over-defaults settings merge and
  its debounced save.

Modules:
- `Common`: Option/Result, first-match search, filter, removal, counting,
  slicing, ceiling division, lower-casing, and the `message || default` error
  text.
- `Models`: records and validity predicates.
- `TradeOrder`: Python's string order and the timestamp sort.
- `TradesRouter`, `PositionsRouter`: the backend routers.
- `MockUsers`: the user dictionary.
- `TradingStore`, `AuthStore`: the browser stores.
- `MenuFlags`: the runtime layout flags shared by both layout implementations.
- `LayoutStore`: the layout store.
- `LayoutComposable`: the older composable.

Values the program reads from its environment become parameters:
- a generated UUID;
- the clock reading (`datetime.now().isoformat()`);
- the viewport width;
- the outcome of each service call;
- what browser storage holds.

Timestamps are the ISO texts the backend stores, compared as Python compares
strings.

The stores and the backend disagree in two places.
- Closing a position. The backend's `close_position` removes only the first
  position with the symbol. The trading store's `closePosition` drops every
  position with it. `TradingStore.ClosePositionMirrorsBackend` proves that the
  two lists agree afterwards exactly when the symbol was held once.
- Creating a trade. The store holds one page of the backend's sorted list,
  and `createTrade` only puts the new trade in front of it. The page grows
  past `pageSize`, and `totalTrades` and `totalPages` keep their old values.
  `TradingStore.CreateAfterFetchDiverges` proves that after a full first page
  the store lists one trade more than the backend's first page, and counts
  one trade fewer than the backend.

`TradingStore.CreateTradeKeepsMirror` and `TradingStore.CancelTradeKeepsMirror`
state their mirror only for a store that holds the backend's whole list in its
stored order.

The two `toggleMenu` variants also differ. In reveal mode the store flips one
flag and returns. The composable flips the overlay flag and then the
width-dependent flag as well.

## Model

| member | source | states |
|---|---|---|
| Models.NewTrade | backend/app/routers/trades.py:58-66 | the created trade carries the request's fields, the server's id and clock reading, and status `pending`; it is valid exactly when the request is |
| TradeOrder.LexLessTotal | backend/app/routers/trades.py:22-26 | any two distinct timestamps are ordered one way or the other by Python's string order |
| TradeOrder.LexLessTransitive | backend/app/routers/trades.py:22-26 | Python's string order on timestamps is transitive |
| TradeOrder.LexLessIrreflexive | backend/app/routers/trades.py:22-26 | no timestamp sorts before itself |
| TradeOrder.SortPermutes | backend/app/routers/trades.py:22-26 | the sorted list is a permutation of the stored trades |
| TradeOrder.SortByTimestampSorted | backend/app/routers/trades.py:22-26 | the sorted list is ordered by timestamp in the requested direction |
| TradeOrder.SortedMeansMonotone | backend/app/routers/trades.py:24-25 | a sorted list is non-increasing by timestamp when descending and non-decreasing otherwise |
| TradeOrder.InsertSorted | backend/app/routers/trades.py:22-26 | inserting into a sorted list keeps it sorted (the step of the sort) |
| TradeOrder.InsertPermutes | backend/app/routers/trades.py:22-26 | an insertion adds exactly the inserted trade and loses nothing |
| TradeOrder.SortKeepsValidity | backend/app/routers/trades.py:22-26 | sorting valid trades yields valid trades |
| TradesRouter.GetTrades | backend/app/routers/trades.py:13-43 | a query is refused with 422 exactly when `page < 1` or `limit` is outside 1..100; otherwise the response echoes `page` and `limit` and reports the stored count as `total` |
| TradesRouter.SortOrderOnlyDescReverses | backend/app/routers/trades.py:17-25 | the sort is newest first exactly when `sortOrder` is omitted or exactly `"desc"` (so `"asc"` and any other value sort oldest first), and `sortBy` never changes the response |
| TradesRouter.ResolveQuery | backend/app/routers/trades.py:15-18 | an omitted `page` becomes 1 and an omitted `limit` 10; given values and the sort parameters pass through |
| TradesRouter.OmittedParamsAccepted | backend/app/routers/trades.py:15-16 | a request is in range exactly when each parameter it gives is: `page >= 1`, `1 <= limit <= 100` |
| TradesRouter.BareRequestIsNewestTen | backend/app/routers/trades.py:15-35 | a request without parameters gets page 1: the first ten trades of the newest-first order (fewer if fewer are stored) |
| TradesRouter.GetTradesPage | backend/app/routers/trades.py:29-43 | an accepted query gets a page of at most `limit` trades, sorted in the requested direction, empty exactly when `(page-1)*limit >= total`, with `totalPages = ceil(total/limit)` |
| TradesRouter.PageStartIsProduct | backend/app/routers/trades.py:31 | the page starts at index `(page - 1) * limit` |
| TradesRouter.PageIsSegment | backend/app/routers/trades.py:31-35 | page `n` is exactly the sorted trades from `(n-1)*limit` up to `min(n*limit, total)` |
| TradesRouter.PagesArePrefix | backend/app/routers/trades.py:31-35 | the first `n` pages, read in order, are the first `min(n*limit, total)` sorted trades |
| TradesRouter.PagesCoverSorted | backend/app/routers/trades.py:22-35 | `ceil(total/limit)` pages or more list every stored trade exactly once, in sorted order |
| TradesRouter.GetTradesKeepsValidity | backend/app/models/trade.py:26-31 | every page of a valid store holds only valid trades |
| TradesRouter.GetTrade | backend/app/routers/trades.py:46-52 | the result is the first trade with the id, and a 404 exactly when no trade has it |
| TradesRouter.CreateTrade | backend/app/routers/trades.py:55-68 | an invalid body is refused with 422; otherwise a pending trade with the request's fields goes to index 0, and the old list follows unchanged |
| TradesRouter.CreatedTradeIsFound | backend/app/routers/trades.py:67 | looking up a newly created trade's id returns that trade |
| TradesRouter.CancelTrade | backend/app/routers/trades.py:71-86 | an unknown id gives 404; an executed or already-cancelled trade gives 400 with its own detail; a pending one becomes cancelled in place, and no other trade or field changes |
| TradesRouter.CancelTwiceRefused | backend/app/routers/trades.py:81-82 | a second cancel of the same id is refused as already cancelled |
| TradesRouter.CancelKeepsValidity | backend/app/routers/trades.py:84-86 | cancelling keeps every stored trade valid |
| PositionsRouter.GetPositions | backend/app/routers/positions.py:9-12 | the stored list, element for element |
| PositionsRouter.GetPosition | backend/app/routers/positions.py:15-21 | the first position with the symbol, and a 404 exactly when none has it |
| PositionsRouter.ClosePosition | backend/app/routers/positions.py:24-35 | an absent symbol gives 404; otherwise the response is the looked-up position and the list loses one element |
| PositionsRouter.ClosePositionRemovesFirstMatch | backend/app/routers/positions.py:27-35 | a close removes exactly the first position with the symbol, keeps the rest in order, and returns the removed position |
| PositionsRouter.CloseThenLookup | backend/app/routers/positions.py:27-32 | a close lowers the number of positions with the symbol by one, and a later lookup fails exactly when there was one |
| PositionsRouter.CloseAbsentIsRefused | backend/app/routers/positions.py:15-29 | an absent symbol is refused with 404 by both the lookup and the close; the error carries no new list |
| PositionsRouter.CloseKeepsValidity | backend/app/models/position.py:4-11 | closing keeps the remaining positions valid, and the returned position is valid |
| MockUsers.GetUserByEmail | backend/app/utils/mock_users.py:11-13 | the first user in insertion order with the e-mail, or none exactly when no user has it |
| MockUsers.GetUserByGoogleId | backend/app/utils/mock_users.py:16-18 | the first user in insertion order with the Google id, or none exactly when no user has it |
| MockUsers.GetUserById | backend/app/utils/mock_users.py:21-23 | the user stored under the key, or none exactly when the key is absent |
| MockUsers.Put | backend/app/utils/mock_users.py:41 | a dictionary store keeps keys unique: an existing key keeps its place, a new one is added at the end |
| MockUsers.PutThenGet | backend/app/utils/mock_users.py:41 | after a store, the key yields the new user and every other key its old value |
| MockUsers.CreateUser | backend/app/utils/mock_users.py:26-42 | the new user has the generated id and `created_at == last_login`; with a fresh id it is appended and nothing else changes |
| MockUsers.CreatedUserIsFound | backend/app/utils/mock_users.py:21-42 | a lookup of a created user's id returns that user, and other ids return what they did before |
| MockUsers.UpdateLastLogin | backend/app/utils/mock_users.py:45-50 | an unknown id yields none and no change; a known one gets its last login set, and the updated user is returned |
| MockUsers.UpdateLastLoginTouchesOneField | backend/app/utils/mock_users.py:47-50 | only the last login of that one user changes |
| MockUsers.SignIn | backend/app/routers/auth.py:56-66 | a returning Google id gets its last login updated; an unknown one creates a user with the fresh id |
| MockUsers.SignInFindsUser | backend/app/routers/auth.py:56-66 | after signing in, a lookup of the Google id finds exactly the user the sign-in produced |
| MockUsers.SignInTwiceCreatesOnce | backend/app/routers/auth.py:56-66 | a second sign-in with the same Google id returns the same user and adds nobody |
| TradingStore.Fail | frontend/src/stores/tradingStore.ts:39-43 | a failed action leaves the data alone, lowers `loading`, and sets the error to the failure's message, or to the action's own text when the message is missing or empty |
| TradingStore.TotalPagesIsCeiling | frontend/src/stores/tradingStore.ts:20 | `totalPages` is the least page count whose pages hold all the trades |
| TradingStore.TotalPages | frontend/src/stores/tradingStore.ts:20 | `Math.ceil(totalTrades / pageSize)`: the page count `r` with `(r-1)*pageSize < totalTrades <= r*pageSize` |
| TradingStore.HasPositions | frontend/src/stores/tradingStore.ts:21 | true exactly when the position list is non-empty |
| TradingStore.TotalUnrealizedPnL | frontend/src/stores/tradingStore.ts:22-24 | the `reduce` left fold over the positions equals the sum of their unrealized P&L |
| TradingStore.ReducePnLIsSum | frontend/src/stores/tradingStore.ts:22-24 | the left fold from 0, last position added last, equals the sum taken from the front |
| TradingStore.SumPnLSnoc | frontend/src/stores/tradingStore.ts:23 | adding one more position at the end adds its unrealized P&L to the sum |
| TradingStore.SumPnLPartition | frontend/src/stores/tradingStore.ts:22-24 | the P&L sum of a list splits into the sum over one symbol's positions and the sum over the rest |
| TradingStore.FetchTradesParams | frontend/src/stores/tradingStore.ts:31-34 | without parameters the request asks for the current page at the page size |
| TradingStore.FetchTrades | frontend/src/stores/tradingStore.ts:27-45 | success overwrites the trades, the total and the current page from the response; failure keeps them and sets "Failed to fetch trades" or the message; `loading` ends false |
| TradingStore.FetchTradesMirrorsBackend | frontend/src/stores/tradingStore.ts:27-38 | fetching from the backend yields at most `pageSize` trades, the backend's total, and a `totalPages` equal to the backend's |
| TradingStore.FetchTrade | frontend/src/stores/tradingStore.ts:47-58 | success sets the current trade and nothing else; failure leaves the slot and sets the error |
| TradingStore.FetchTradeMirrorsBackend | frontend/src/stores/tradingStore.ts:47-58 | fetching a trade the backend holds makes the first stored trade with the id current; the backend's refusal reaches the store as a 404, which keeps the current trade and records the client's message or "Failed to fetch trade" |
| TradingStore.CreateTrade | frontend/src/stores/tradingStore.ts:60-74 | success puts the created trade at index 0 with the old list after it; failure leaves the list, sets the error, and hands the failure back |
| TradingStore.CreateTradeKeepsMirror | frontend/src/stores/tradingStore.ts:64-66 | a store showing the backend's whole list still matches it after a creation |
| TradingStore.CreateAfterFetchDiverges | frontend/src/stores/tradingStore.ts:64-66 | after the first page is fetched, a creation leaves the store with the new trade in front of the old page and the old total, while the backend counts one more trade; after a full page the store lists one trade more than the backend's first page |
| TradingStore.CancelTrade | frontend/src/stores/tradingStore.ts:76-93 | success replaces the first trade with the id, if any, and keeps the length and every other trade; failure leaves the list, sets the error, and hands the failure back |
| TradingStore.CancelTradeKeepsMirror | frontend/src/stores/tradingStore.ts:80-84 | a store showing the backend's whole list still matches it after a cancellation |
| TradingStore.FetchPositions | frontend/src/stores/tradingStore.ts:95-106 | success replaces the position list; failure leaves it and sets the error |
| TradingStore.FetchPositionsMirrorsBackend | frontend/src/stores/tradingStore.ts:95-106 | fetching from the backend shows its positions exactly; `hasPositions` and the P&L total are then the backend list's |
| TradingStore.ClosePosition | frontend/src/stores/tradingStore.ts:108-122 | success keeps exactly the positions with another symbol, in order; failure leaves the list, sets the error, and hands the failure back |
| TradingStore.ClosePositionPnL | frontend/src/stores/tradingStore.ts:22-24 | a close lowers the total unrealized P&L by the P&L of the positions removed |
| TradingStore.ClosePositionHasPositions | frontend/src/stores/tradingStore.ts:21 | after a close, `hasPositions` holds exactly when some position had another symbol |
| TradingStore.ClosePositionMirrorsBackend | frontend/src/stores/tradingStore.ts:112-113 | the store's list and the backend's agree after a close exactly when the symbol was held once |
| TradingStore.SetPage | frontend/src/stores/tradingStore.ts:124-127 | the page is recorded and the fetch asks for that page at the page size |
| TradingStore.SetPageMirrorsBackend | frontend/src/stores/tradingStore.ts:124-127 | the request asks for the page at the page size; the backend accepts it exactly when the page is at least 1, and the store then shows the backend's total and page count; otherwise the backend's 422 reaches the store, which keeps its trades and the recorded page and records the client's message or "Failed to fetch trades" |
| TradingStore.ClearError | frontend/src/stores/tradingStore.ts:129-131 | the error is cleared and nothing else changes |
| AuthStore.IsAuthenticated | frontend/src/stores/authStore.ts:13 | true exactly when a user is held |
| AuthStore.FetchUser | frontend/src/stores/authStore.ts:16-30 | success stores the user; failure clears it, and the error stays empty exactly when the status is 401 |
| AuthStore.FetchUserDecidesSession | frontend/src/stores/authStore.ts:16-30 | after `fetchUser` the store is authenticated exactly when the request succeeded, and any error text is non-empty |
| AuthStore.Logout | frontend/src/stores/authStore.ts:37-48 | success clears the user; failure keeps the user and sets "Failed to logout" or the message |
| AuthStore.LogoutFailureKeepsSession | frontend/src/stores/authStore.ts:43-44 | a failed logout leaves the session as it was, with a non-empty error |
| AuthStore.ClearError | frontend/src/stores/authStore.ts:50-52 | the error is cleared and nothing else changes |
| AuthStore.FetchThenLogoutIsInitial | frontend/src/stores/authStore.ts:16-48 | signing in and then out successfully ends in the initial state |
| MenuFlags.ChangedFlags | frontend/src/stores/layoutStore.ts:16-25 | the set of flags on which two states differ |
| MenuFlags.SameChangeTwice | frontend/src/stores/layoutStore.ts:86-107 | making the same change of flags twice restores the state |
| MenuFlags.WidthFlag | frontend/src/stores/layoutStore.ts:102-106 | the desktop flag above 991 pixels, the mobile flag at or below |
| LayoutStore.ModeFlag | frontend/src/stores/layoutStore.ts:87-90 | overlay mode acts on the overlay flag, drawer mode on the sidebar flag, and other modes on no extra flag |
| LayoutStore.ToggleMenu | frontend/src/stores/layoutStore.ts:86-107 | overlay and drawer modes flip their flag plus the width-dependent flag; reveal and every other mode flip only the width-dependent flag; the config does not change |
| LayoutStore.RevealTogglesOneFlag | frontend/src/stores/layoutStore.ts:91-99 | in reveal mode exactly one flag flips |
| LayoutStore.ToggleMenuTwice | frontend/src/stores/layoutStore.ts:86-107 | toggling twice at the same width restores the layout |
| LayoutStore.UpdateMenuMode | frontend/src/stores/layoutStore.ts:143-154 | the mode is recorded; the overlay, mobile, sidebar and desktop flags are cleared; nothing else changes |
| LayoutStore.RevealAfterModeSwitch | frontend/src/stores/layoutStore.ts:91-99 | after switching to reveal, one toggle shows the sidebar exactly on a mobile-width viewport |
| LayoutStore.ToggleDarkMode | frontend/src/stores/layoutStore.ts:72-75 | the dark flag flips and nothing else changes |
| LayoutStore.UpdateDarkTheme | frontend/src/stores/layoutStore.ts:129-133 | the dark flag ends as requested, and a request for the current value changes nothing |
| LayoutStore.UpdateDarkThemeIdempotent | frontend/src/stores/layoutStore.ts:129-133 | asking for the same theme twice is asking once |
| LayoutStore.ColorSchemeDisplay | frontend/src/stores/layoutStore.ts:65 | "Dark" exactly when the dark flag is set, "Light" exactly when not |
| LayoutStore.DisplayAfterUpdate | frontend/src/stores/layoutStore.ts:65 | after `updateDarkTheme`, the label names the requested theme |
| MenuFlags.IsSidebarActive | frontend/src/layout/composables/layout.js:107 | the overlay menu or the mobile static menu is showing |
| LayoutStore.StoreSidebarActive | frontend/src/stores/layoutStore.ts:56-58 | the overlay menu or the mobile static menu is showing |
| LayoutStore.UpdateCardStyle | frontend/src/stores/layoutStore.ts:135-137 | the style is stored lower-cased and nothing else changes |
| LayoutStore.UpdateMenuTheme | frontend/src/stores/layoutStore.ts:139-141 | the theme is stored lower-cased and nothing else changes |
| LayoutStore.LowerCasingSettersIgnoreCase | frontend/src/stores/layoutStore.ts:135-141 | the lower-casing setters ignore letter case, and setting the stored value again changes nothing |
| LayoutStore.UpdatePreset | frontend/src/stores/layoutStore.ts:117-119 | only the preset changes, to the given value |
| LayoutStore.UpdatePrimary | frontend/src/stores/layoutStore.ts:121-123 | only the primary colour changes, to the given value |
| LayoutStore.UpdateSurface | frontend/src/stores/layoutStore.ts:125-127 | only the surface changes, to the given value |
| LayoutComposable.LoadSettings | frontend/src/layout/composables/layout.js:17-28 | every key comes from the saved record when present there and from the defaults otherwise; missing, empty or unparsable text gives the defaults |
| LayoutComposable.Boot | frontend/src/layout/composables/layout.js:39 | at start-up the configuration is what `loadSettings` gives for the stored text, storage is untouched and no save is waiting |
| LayoutComposable.LoadSavedRoundTrip | frontend/src/layout/composables/layout.js:17-37 | loading what was saved gives back the saved configuration |
| LayoutComposable.EmptyRecordLoadsDefaults | frontend/src/layout/composables/layout.js:20-22 | a saved record without keys loads as the defaults |
| LayoutComposable.ChangeConfig | frontend/src/layout/composables/layout.js:47-58 | a change that moves the configuration leaves one save waiting; an unchanged configuration triggers nothing |
| LayoutComposable.Flush | frontend/src/layout/composables/layout.js:31-37 | a firing timer makes one write attempt of the current configuration; a failed write leaves storage alone |
| LayoutComposable.ChangeAllPending | frontend/src/layout/composables/layout.js:47-58 | after a burst of changes, a save is waiting exactly when one was waiting or some change moved the configuration |
| LayoutComposable.BurstWritesOnceWithLatest | frontend/src/layout/composables/layout.js:47-58 | once a save is due (one was waiting or some change moved the configuration), a burst of changes followed by the timer makes one write, carrying the last configuration, which the next start-up loads |
| LayoutComposable.FailedWriteIsInvisible | frontend/src/layout/composables/layout.js:31-37 | a failed write changes nothing a later start-up could see |
| LayoutComposable.ToggleDarkMode | frontend/src/layout/composables/layout.js:86-89 | the dark flag flips, nothing else in the configuration changes, and a save becomes due |
| LayoutComposable.ModeFlag | frontend/src/layout/composables/layout.js:92-98 | overlay and reveal act on the overlay flag, drawer on the sidebar flag, and other modes on no extra flag |
| LayoutComposable.ToggleMenu | frontend/src/layout/composables/layout.js:91-105 | the mode's flag, if any, flips, and then the width-dependent flag flips in every mode |
| LayoutComposable.ToggleMenuTwice | frontend/src/layout/composables/layout.js:91-105 | toggling twice with the same mode and width restores the state |
| LayoutComposable.RevealDiffersFromStore | frontend/src/layout/composables/layout.js:96-107 | reveal mode on a desktop viewport flips two flags, the overlay one included, so a hidden sidebar becomes visible; the store's reveal toggle from the same state ends in a different state |
| Common.FirstIndex | backend/app/routers/trades.py:49 | the index of the first match, and none exactly when nothing matches |
| Common.FilterMembers | frontend/src/stores/tradingStore.ts:113 | filtering keeps exactly the elements that pass |
| Common.FilterAppend | frontend/src/stores/tradingStore.ts:113 | filtering distributes over concatenation |
| Common.RemoveFirstIsRemoveAt | backend/app/routers/positions.py:32 | `list.remove(x)` deletes the element at the first index holding `x` |
| Common.CountRemoveAt | backend/app/routers/positions.py:32 | removing a matching element lowers the match count by one |
| Common.CeilDivUnique | backend/app/routers/trades.py:30 | the ceiling of `a/b` is the only `r` with `(r-1)*b < a <= r*b` |
| Common.ToLowerIdempotent | frontend/src/stores/layoutStore.ts:135-141 | lower-casing twice is lower-casing once |
| Common.ErrorText | frontend/src/stores/tradingStore.ts:40 | the failure's message when it is non-empty, else the action's own text |

## Left out

- The HTTP service wrappers (`tradingService.ts`, `authService.ts`) and the `api` client behind them. Their results are the `Ok`/`Err` outcomes the store functions take.
- OAuth, JWT and cookie handling in the auth router and the auth dependency. Only the get-or-create step of the callback is modelled (`MockUsers.SignIn`).
- Application wiring (`main.py`, `main.ts`), the router guard, and the random sample data generator (`mock_data.py`).
- DOM effects: the `app-dark` class toggling, `applyDarkModeClass`, `startViewTransition` and console logging. `toggleDarkMode` is modelled as the `executeDarkModeToggle` it runs either way. Where `startViewTransition` exists, the flip runs later, in the transition's callback (frontend/src/stores/layoutStore.ts:83). The model applies that deferred flip at once. So `LayoutStore.UpdateDarkTheme` and `LayoutStore.UpdateDarkThemeIdempotent` describe calls made after earlier flips have landed. Two `updateDarkTheme` calls in the same task can both see the old value and both toggle.
- `setActiveMenuItem`, whose `item.value || item` coercion has no counterpart in a typed model. The login redirect is left out for the same kind of reason.
- The Pinia persistence plugin of the layout store, a library feature whose behaviour is not in the repository.
- Timers and browser storage I/O. The debounce is a single pending slot, and the 300 ms delay is the moment `Flush` is applied. Storage is a value, and `JSON.parse` is classified into missing, empty, unparsable and parsed.
- A stored JSON value that is not an object, keys that are not configuration fields, and values of the wrong type in the saved record are not modelled.
- Floating point. Prices, quantities and P&L are exact reals. The `reduce` fold is modelled in its own order (`ReducePnL`), and with exact reals it equals the sum in any order. With floating point, the source's result could depend on the order.
- TradingStore.TotalPages: defined only for a positive page size; `Math.ceil(n / 0)` is not modelled, and no action writes `pageSize`.
- The message the HTTP client attaches to a rejected request. `TradingStore.Rejection` takes it as a parameter and keeps the backend's status.
- TradingStore.CancelTradeKeepsMirror: states the mirror only for a store holding the backend's whole list in stored order. For the page the store actually holds, the model does not prove that a cancel on both sides leaves the store showing the backend's page.
- Concurrency between overlapping store actions. `setPage` does not await its fetch; the model applies the fetch's outcome at once.
- `EmailStr` format validation of user e-mails.
- Common.ToLower: lower-cases the ASCII letters only, while JavaScript's `toLowerCase` also maps other Unicode letters.
- TradeOrder.SortByTimestamp: is proved sorted and a permutation of its input. The stability of Python's sort (equal timestamps keep their stored order) is not proved.
- The router guard (frontend/src/router/index.ts:30) calls `fetchUser` only when no user is held and the store is not loading. `fetchUser` itself has no such check, so the model of `fetchUser` has none either; the guard is not modelled.
- `layout.js` has no `updateMenuMode`, `updateDarkTheme` or lower-casing setters, so these are modelled for the store only.

=== FILE: auth_store.dfy ===
/**
 * The browser's authentication store: the signed-in user, if any, with the
 * same loading and error discipline as the trading store. A 401 from the
 * current-user request means "nobody is signed in", which is not an error.
 */
module AuthStore {
  import opened Common

  /** The user record the current-user endpoint returns. */
  datatype AuthUser = AuthUser(id: string, email: string, name: string, picture: Option<string>)

  datatype AuthState = AuthState(user: Option<AuthUser>, loading: bool, error: Option<string>)

  const Initial: AuthState := AuthState(None, false, None)

  /** The status with which the backend refuses a request that carries no valid session. */
  const Unauthorized: int := 401

  /** `isAuthenticated`. */
  function IsAuthenticated(s: AuthState): (r: bool)
    ensures r <==> s.user != None
  {
    s.user.Some?
  }

  /**
   * `fetchUser`: the returned user is stored. On failure the user is
   * cleared; the error is left empty when the response status is 401 and set
   * otherwise, including when there is no response at all.
   */
  function FetchUser(s: AuthState, outcome: Reply<AuthUser>): (r: AuthState)
    ensures !r.loading
    ensures outcome.Ok? ==> r.user == Some(outcome.value) && r.error.None?
    ensures outcome.Err? ==> r.user.None?
    ensures outcome.Err? ==> (r.error.None? <==> outcome.error.status == Some(Unauthorized))
    ensures outcome.Err? && r.error.Some? ==> r.error.value == ErrorText(outcome.error.message, "Failed to fetch user")
  {
    var started := s.(loading := true, error := None);
    match outcome
    case Ok(u) => started.(user := Some(u), loading := false)
    case Err(f) =>
      var cleared := started.(user := None);
      if f.status != Some(Unauthorized) then
        cleared.(error := Some(ErrorText(f.message, "Failed to fetch user")), loading := false)
      else cleared.(loading := false)
  }

  /** After `fetchUser` the store is signed in exactly when the request succeeded. */
  lemma FetchUserDecidesSession(s: AuthState, outcome: Reply<AuthUser>)
    ensures IsAuthenticated(FetchUser(s, outcome)) <==> outcome.Ok?
    ensures FetchUser(s, outcome).error.Some? ==> FetchUser(s, outcome).error.value != ""
  {
  }

  /** `logout`: success signs the user out; a failure sets the error and keeps whoever was signed in. */
  function Logout(s: AuthState, outcome: Reply<()>): (r: AuthState)
    ensures !r.loading
    ensures outcome.Ok? ==> r.user.None? && r.error.None?
    ensures outcome.Err? ==> r.user == s.user
    ensures outcome.Err? ==> r.error == Some(ErrorText(outcome.error.message, "Failed to logout"))
  {
    var started := s.(loading := true, error := None);
    match outcome
    case Ok(_) => started.(user := None, loading := false)
    case Err(f) => started.(error := Some(ErrorText(f.message, "Failed to logout")), loading := false)
  }

  /** A failed logout leaves the session as it was, with a visible error. */
  lemma LogoutFailureKeepsSession(s: AuthState, f: Failure)
    ensures var r := Logout(s, Result.Err(f));
      IsAuthenticated(r) == IsAuthenticated(s) && r.error.Some? && r.error.value != ""
  {
  }

  /** `clearError`. */
  function ClearError(s: AuthState): (r: AuthState)
    ensures r.error.None? && r.user == s.user && r.loading == s.loading
  {
    s.(error := None)
  }

  /** Signing in and then out successfully ends where a fresh store starts. */
  lemma FetchThenLogoutIsInitial(s: AuthState, u: AuthUser)
    ensures Logout(FetchUser(s, Result.Ok(u)), Result.Ok(())) == Initial
  {
  }
}

=== FILE: common.dfy ===
/**
 * Shared building blocks for the trading application model: optional values,
 * results, the list operations the routers and stores rely on (first match,
 * filtering, removal, Python-style slicing), exact ceiling division and the
 * JavaScript "message or default" idiom.
 */
module Common {

  /** A value that may be absent: Python's `None`, JavaScript's `null`. */
  datatype Option<T> = None | Some(value: T)

  /** A computation that either produces a value or fails with an error. */
  datatype Result<T, E> = Ok(value: T) | Err(error: E)

  /** The HTTP error a FastAPI handler raises (`HTTPException`). */
  datatype HttpError = HttpError(status: int, detail: string)

  /**
   * Why a service call failed, as the browser sees it: the exception's
   * `message` (possibly absent or empty) and, for HTTP errors, the
   * response's status code.
   */
  datatype Failure = Failure(message: Option<string>, status: Option<int>)

  /** The settled outcome of a service call: its payload, or the failure it was rejected with. */
  type Reply<T> = Result<T, Failure>

  /** A new server-side collection together with the object the handler returns. */
  datatype Updated<S, T> = Updated(store: S, response: T)

  /**
   * Index of the first element satisfying `p`; this is Python's
   * `next((x for x in s if p(x)), None)` and JavaScript's `findIndex`.
   */
  function FirstIndex<T>(s: seq<T>, p: T -> bool): (r: Option<nat>)
    ensures r.Some? ==> r.value < |s| && p(s[r.value])
    ensures r.Some? ==> forall j :: 0 <= j < r.value ==> !p(s[j])
    ensures r.None? <==> forall j :: 0 <= j < |s| ==> !p(s[j])
  {
    if |s| == 0 then None
    else if p(s[0]) then Some(0)
    else
      match FirstIndex(s[1..], p)
      case None => None
      case Some(i) => Some(i + 1)
  }

  /** The elements of `s` that satisfy `p`, in their original order (JavaScript `filter`). */
  function Filter<T>(s: seq<T>, p: T -> bool): (r: seq<T>)
    ensures |r| <= |s|
    ensures forall i :: 0 <= i < |r| ==> p(r[i])
  {
    if |s| == 0 then []
    else if p(s[0]) then [s[0]] + Filter(s[1..], p)
    else Filter(s[1..], p)
  }

  /** Exactly the elements of `s` that satisfy `p` survive the filter. */
  lemma {:induction false} FilterMembers<T>(s: seq<T>, p: T -> bool)
    ensures forall x :: x in Filter(s, p) <==> x in s && p(x)
    decreases |s|
  {
    if |s| > 0 {
      FilterMembers(s[1..], p);
      assert s == [s[0]] + s[1..];
    }
  }

  /** Filtering with a test every element passes keeps the list. */
  lemma {:induction false} FilterAll<T>(s: seq<T>, p: T -> bool)
    requires forall j :: 0 <= j < |s| ==> p(s[j])
    ensures Filter(s, p) == s
    decreases |s|
  {
    if |s| > 0 {
      FilterAll(s[1..], p);
      assert s == [s[0]] + s[1..];
    }
  }

  /** Filtering distributes over concatenation, so kept elements keep their relative order. */
  lemma {:induction false} FilterAppend<T>(a: seq<T>, b: seq<T>, p: T -> bool)
    ensures Filter(a + b, p) == Filter(a, p) + Filter(b, p)
    decreases |a|
  {
    if |a| == 0 {
      assert a + b == b;
    } else {
      assert (a + b)[1..] == a[1..] + b;
      FilterAppend(a[1..], b, p);
    }
  }

  /** `s` without the element at index `i`; the others keep their order. */
  function RemoveAt<T>(s: seq<T>, i: nat): (r: seq<T>)
    requires i < |s|
    ensures |r| == |s| - 1
    ensures forall j :: 0 <= j < i ==> r[j] == s[j]
    ensures forall j :: i <= j < |r| ==> r[j] == s[j + 1]
  {
    s[..i] + s[i + 1..]
  }

  /** Python's `list.remove(x)`: drop the first element equal to `x`. */
  function RemoveFirst<T(==)>(s: seq<T>, x: T): (r: seq<T>)
    requires x in s
    ensures |r| == |s| - 1
  {
    if s[0] == x then s[1..] else [s[0]] + RemoveFirst(s[1..], x)
  }

  /** Removing the first occurrence of a value is removing at the index of that occurrence. */
  lemma {:induction false} RemoveFirstIsRemoveAt<T>(s: seq<T>, x: T, i: nat)
    requires i < |s| && s[i] == x
    requires forall j :: 0 <= j < i ==> s[j] != x
    ensures RemoveFirst(s, x) == RemoveAt(s, i)
    decreases i
  {
    if i > 0 {
      var t := s[1..];
      assert t[i - 1] == x;
      assert forall j :: 0 <= j < i - 1 ==> t[j] != x by {
        forall j | 0 <= j < i - 1 ensures t[j] != x { assert t[j] == s[j + 1]; }
      }
      RemoveFirstIsRemoveAt(t, x, i - 1);
      var a := t[..i - 1];
      var b := t[i..];
      assert RemoveFirst(s, x) == [s[0]] + (a + b);
      assert s[..i] == [s[0]] + a;
      assert s[i + 1..] == b;
      assert [s[0]] + (a + b) == ([s[0]] + a) + b;
    }
  }

  /** Number of elements of `s` that satisfy `p`. */
  function Count<T>(s: seq<T>, p: T -> bool): (n: nat)
    ensures n <= |s|
    ensures n == 0 <==> forall j :: 0 <= j < |s| ==> !p(s[j])
  {
    if |s| == 0 then 0
    else
      assert forall j :: 1 <= j < |s| ==> s[j] == s[1..][j - 1];
      (if p(s[0]) then 1 else 0) + Count(s[1..], p)
  }

  /** Counting distributes over concatenation. */
  lemma {:induction false} CountAppend<T>(a: seq<T>, b: seq<T>, p: T -> bool)
    ensures Count(a + b, p) == Count(a, p) + Count(b, p)
    decreases |a|
  {
    if |a| == 0 {
      assert a + b == b;
    } else {
      assert (a + b)[1..] == a[1..] + b;
      CountAppend(a[1..], b, p);
    }
  }

  /** Removing one element that satisfies `p` lowers the count by exactly one. */
  lemma CountRemoveAt<T>(s: seq<T>, i: nat, p: T -> bool)
    requires i < |s| && p(s[i])
    ensures Count(RemoveAt(s, i), p) == Count(s, p) - 1
  {
    var a := s[..i];
    var b := s[i + 1..];
    var mid := [s[i]] + b;
    assert s == a + mid;
    assert RemoveAt(s, i) == a + b;
    CountAppend(a, mid, p);
    CountAppend([s[i]], b, p);
    CountAppend(a, b, p);
    assert [s[i]][1..] == [];
  }

  /** A list is what comes before index `i`, the element at `i`, and what comes after. */
  lemma SplitAt<T>(s: seq<T>, i: nat)
    requires i < |s|
    ensures s == s[..i] + ([s[i]] + s[i + 1..])
  {
  }

  /** A prefix is the shorter prefix followed by the segment between the two ends. */
  lemma PrefixSplit<T>(s: seq<T>, i: nat, j: nat)
    requires i <= j <= |s|
    ensures s[..j] == s[..i] + s[i..j]
  {
  }

  /** A prefix followed by the segment after it is the longer prefix. */
  lemma PrefixJoin<T>(s: seq<T>, a: seq<T>, b: seq<T>, i: nat, j: nat)
    requires i <= j <= |s| && a == s[..i] && b == s[i..j]
    ensures a + b == s[..j]
  {
    PrefixSplit(s, i, j);
  }

  function Min(a: int, b: int): int { if a <= b then a else b }

  /**
   * Python's `s[lo:hi]` for non-negative bounds: both bounds are clamped to
   * the length, and a slice whose clamped start is not below its clamped end
   * is empty.
   */
  function Slice<T>(s: seq<T>, lo: nat, hi: nat): (r: seq<T>)
    ensures |r| == if Min(lo, |s|) < Min(hi, |s|) then Min(hi, |s|) - Min(lo, |s|) else 0
    ensures forall k :: 0 <= k < |r| ==> r[k] == s[lo + k]
  {
    var a := Min(lo, |s|);
    var b := Min(hi, |s|);
    if a < b then s[a..b] else []
  }

  /**
   * `Math.ceil(a / b)` and Python's `math.ceil(a / b)` for a positive divisor,
   * computed exactly with floor division. Its defining bounds are stated
   * separately, so that contexts mentioning it carry no multiplication.
   */
  function CeilDiv(a: int, b: int): int
    requires b > 0
  {
    -((-a) / b)
  }

  /** The ceiling is the least multiple count that covers `a`. */
  lemma CeilDivBounds(a: int, b: int)
    requires b > 0
    ensures (CeilDiv(a, b) - 1) * b < a <= CeilDiv(a, b) * b
  {
    var q := (-a) / b;
    var m := (-a) % b;
    assert -a == q * b + m && 0 <= m < b;
  }

  /** Any integer with the ceiling's two bounds is the ceiling. */
  lemma CeilDivUnique(a: int, b: int, r: int)
    requires b > 0
    requires (r - 1) * b < a <= r * b
    ensures r == CeilDiv(a, b)
  {
    var c := CeilDiv(a, b);
    CeilDivBounds(a, b);
    MulCancel(r - 1, c, b);
    MulCancel(c - 1, r, b);
  }

  /** A positive factor can be cancelled from a strict inequality. */
  lemma MulCancel(x: int, y: int, b: int)
    requires b > 0 && x * b < y * b
    ensures x < y
  {
    assert (y - x) * b == y * b - x * b;
  }

  /** ASCII lower-casing of one character. */
  function LowerChar(c: char): char
  {
    if 'A' <= c <= 'Z' then (c as int + 32) as char else c
  }

  /** `String.prototype.toLowerCase`, restricted to the ASCII letters. */
  function ToLower(s: string): (r: string)
    ensures |r| == |s|
    ensures forall i :: 0 <= i < |s| ==> r[i] == LowerChar(s[i])
    ensures forall i :: 0 <= i < |r| ==> !('A' <= r[i] <= 'Z')
  {
    seq(|s|, i requires 0 <= i < |s| => LowerChar(s[i]))
  }

  /** Lower-casing twice is lower-casing once. */
  lemma ToLowerIdempotent(s: string)
    ensures ToLower(ToLower(s)) == ToLower(s)
  {
    var t := ToLower(s);
    assert forall i :: 0 <= i < |t| ==> LowerChar(t[i]) == t[i];
  }

  /**
   * JavaScript's `err.message || fallback`: an absent or empty message is
   * falsy, so the fallback text is used instead.
   */
  function ErrorText(message: Option<string>, fallback: string): (r: string)
    ensures message.Some? && message.value != "" ==> r == message.value
    ensures (message.None? || message.value == "") ==> r == fallback
    ensures fallback != "" ==> r != ""
  {
    if message.Some? && message.value != "" then message.value else fallback
  }
}

=== FILE: layout_composable.dfy ===
/**
 * The older layout composable. Its configuration is read once from browser
 * storage, merging the saved record over the defaults, and every later
 * change is written back through a debounce that keeps at most one save
 * waiting. Storage is a value passed in and out; the timer is reduced to the
 * pending slot and the moment it fires.
 */
module LayoutComposable {
  import opened Common
  import opened MenuFlags
  import LayoutStore

  /** The composable's configuration: the store's fields plus `colorScheme`. */
  datatype Config = Config(
    preset: string,
    primary: string,
    surface: Option<string>,
    darkTheme: bool,
    menuMode: string,
    menuTheme: string,
    colorScheme: string,
    cardStyle: string)

  const DefaultConfig: Config := Config("Aura", "emerald", None, false, "static", "dark", "light", "filled")

  /**
   * A parsed saved record: each key may be absent. A present `surface` may
   * itself be `null`.
   */
  datatype SavedConfig = SavedConfig(
    preset: Option<string>,
    primary: Option<string>,
    surface: Option<Option<string>>,
    darkTheme: Option<bool>,
    menuMode: Option<string>,
    menuTheme: Option<string>,
    colorScheme: Option<string>,
    cardStyle: Option<string>)

  /** What `localStorage.getItem` yields for the settings key, classified by how `JSON.parse` treats it. */
  datatype StoredValue =
    | Missing
    | Empty
    | Unparsable
    | Parsed(saved: SavedConfig)

  function Pick<T>(saved: Option<T>, fallback: T): T
  {
    if saved.Some? then saved.value else fallback
  }

  /**
   * `loadSettings`: `{ ...defaultConfig, ...parsed }` when the stored text
   * parses, the defaults when nothing (or an empty text) is stored or the
   * text does not parse.
   */
  function LoadSettings(stored: StoredValue): (c: Config)
    ensures !stored.Parsed? ==> c == DefaultConfig
    ensures stored.Parsed? ==>
      var s := stored.saved;
      && c.preset == (if s.preset.Some? then s.preset.value else DefaultConfig.preset)
      && c.primary == (if s.primary.Some? then s.primary.value else DefaultConfig.primary)
      && c.surface == (if s.surface.Some? then s.surface.value else DefaultConfig.surface)
      && c.darkTheme == (if s.darkTheme.Some? then s.darkTheme.value else DefaultConfig.darkTheme)
      && c.menuMode == (if s.menuMode.Some? then s.menuMode.value else DefaultConfig.menuMode)
      && c.menuTheme == (if s.menuTheme.Some? then s.menuTheme.value else DefaultConfig.menuTheme)
      && c.colorScheme == (if s.colorScheme.Some? then s.colorScheme.value else DefaultConfig.colorScheme)
      && c.cardStyle == (if s.cardStyle.Some? then s.cardStyle.value else DefaultConfig.cardStyle)
  {
    match stored
    case Parsed(s) =>
      Config(
        Pick(s.preset, DefaultConfig.preset),
        Pick(s.primary, DefaultConfig.primary),
        Pick(s.surface, DefaultConfig.surface),
        Pick(s.darkTheme, DefaultConfig.darkTheme),
        Pick(s.menuMode, DefaultConfig.menuMode),
        Pick(s.menuTheme, DefaultConfig.menuTheme),
        Pick(s.colorScheme, DefaultConfig.colorScheme),
        Pick(s.cardStyle, DefaultConfig.cardStyle))
    case _ => DefaultConfig
  }

  /** `JSON.stringify(config)` read back by `JSON.parse`: every key present with its value. */
  function Serialize(c: Config): (s: StoredValue)
    ensures s.Parsed?
  {
    Parsed(SavedConfig(Some(c.preset), Some(c.primary), Some(c.surface), Some(c.darkTheme),
                       Some(c.menuMode), Some(c.menuTheme), Some(c.colorScheme), Some(c.cardStyle)))
  }

  /** Loading what was saved gives back the saved configuration. */
  lemma LoadSavedRoundTrip(c: Config)
    ensures LoadSettings(Serialize(c)) == c
  {
  }

  /** A saved record with no keys loads as the defaults, just as no saved record does. */
  lemma EmptyRecordLoadsDefaults()
    ensures LoadSettings(Parsed(SavedConfig(None, None, None, None, None, None, None, None))) == LoadSettings(Missing)
  {
  }

  /**
   * The composable's persistent part: the live configuration, whether a
   * save is waiting on the timer, what storage holds, and how many writes
   * have been attempted.
   */
  datatype Persisted = Persisted(config: Config, pending: bool, storage: StoredValue, writes: nat)

  /** Module start-up: the configuration is loaded from what storage holds and no save is waiting. */
  function Boot(storage: StoredValue): (p: Persisted)
    ensures p.config == LoadSettings(storage) && !p.pending && p.storage == storage && p.writes == 0
  {
    Persisted(LoadSettings(storage), false, storage, 0)
  }

  /**
   * A change to the configuration. The deep watcher fires only when some
   * value actually changes; it then clears the waiting timeout and arms a
   * new one, so there is still one slot.
   */
  function ChangeConfig(p: Persisted, c: Config): (r: Persisted)
    ensures r.config == c && r.storage == p.storage && r.writes == p.writes
    ensures r.pending == (p.pending || c != p.config)
  {
    if c == p.config then p else p.(config := c, pending := true)
  }

  /**
   * The debounce timer fires. The callback saves the reactive configuration
   * object, so it writes the configuration as it is at that moment. A
   * failing write (`written == false`) is caught and logged: storage keeps
   * its old content and nothing reaches the caller.
   */
  function Flush(p: Persisted, written: bool): (r: Persisted)
    ensures !r.pending && r.config == p.config
    ensures !p.pending ==> r == p
    ensures p.pending ==> r.writes == p.writes + 1
    ensures p.pending && written ==> r.storage == Serialize(p.config)
    ensures p.pending && !written ==> r.storage == p.storage
  {
    if !p.pending then p
    else p.(pending := false, storage := if written then Serialize(p.config) else p.storage, writes := p.writes + 1)
  }

  /** A run of configuration changes with no timer firing in between. */
  function ChangeAll(p: Persisted, cs: seq<Config>): (r: Persisted)
    ensures r.storage == p.storage && r.writes == p.writes
    ensures |cs| > 0 ==> r.config == cs[|cs| - 1]
    ensures |cs| == 0 ==> r == p
    decreases |cs|
  {
    if |cs| == 0 then p else ChangeAll(ChangeConfig(p, cs[0]), cs[1..])
  }

  /** Some configuration in the run differs from the one before it, starting from `prev`. */
  predicate AnyChange(prev: Config, cs: seq<Config>)
    decreases |cs|
  {
    |cs| > 0 && (cs[0] != prev || AnyChange(cs[0], cs[1..]))
  }

  /** A change burst leaves a save waiting exactly when one was waiting or some change moved the configuration. */
  lemma {:induction false} ChangeAllPending(p: Persisted, cs: seq<Config>)
    ensures ChangeAll(p, cs).pending <==> p.pending || AnyChange(p.config, cs)
    decreases |cs|
  {
    if |cs| > 0 {
      ChangeAllPending(ChangeConfig(p, cs[0]), cs[1..]);
    }
  }

  /**
   * However many changes arrive before the timer fires, once a save is due
   * (one was already waiting, or some change moved the configuration) the
   * firing makes one write, and that write carries the last configuration,
   * which is what the next start-up loads.
   */
  lemma BurstWritesOnceWithLatest(p: Persisted, cs: seq<Config>)
    requires |cs| > 0 && (p.pending || AnyChange(p.config, cs))
    ensures var r := Flush(ChangeAll(p, cs), true);
      && r.writes == p.writes + 1
      && LoadSettings(r.storage) == cs[|cs| - 1]
      && Boot(r.storage).config == r.config
  {
    ChangeAllPending(p, cs);
    assert ChangeAll(p, cs).pending;
    LoadSavedRoundTrip(cs[|cs| - 1]);
  }

  /** A failed write changes nothing that a later start-up could see. */
  lemma FailedWriteIsInvisible(p: Persisted)
    ensures Boot(Flush(p, false).storage) == Boot(p.storage)
  {
  }

  /** `toggleDarkMode`: the dark flag flips, which the watcher sees as a change. */
  function ToggleDarkMode(p: Persisted): (r: Persisted)
    ensures r.config.darkTheme == !p.config.darkTheme
    ensures r.config.(darkTheme := p.config.darkTheme) == p.config
    ensures r.pending && r.storage == p.storage
  {
    ChangeConfig(p, p.config.(darkTheme := !p.config.darkTheme))
  }

  /** The flag the composable's `toggleMenu` flips for a menu mode before the width-dependent one, if any. */
  function ModeFlag(mode: string): (f: Option<Flag>)
    ensures mode == "overlay" || mode == "reveal" ==> f == Some(OverlayMenuActive)
    ensures mode == "drawer" ==> f == Some(SidebarActive)
    ensures mode != "overlay" && mode != "reveal" && mode != "drawer" ==> f == None
  {
    if mode == "overlay" then Some(OverlayMenuActive)
    else if mode == "drawer" then Some(SidebarActive)
    else if mode == "reveal" then Some(OverlayMenuActive)
    else None
  }

  /**
   * `toggleMenu` of the composable: overlay and reveal modes flip the overlay
   * flag, drawer mode the sidebar flag, and then, in every mode, the
   * width-dependent flag flips too.
   */
  function ToggleMenu(c: Config, st: LayoutState, width: int): (r: LayoutState)
    ensures r.activeMenuItem == st.activeMenuItem
    ensures ModeFlag(c.menuMode).Some? ==> ChangedFlags(st, r) == {ModeFlag(c.menuMode).value, WidthFlag(width)}
    ensures ModeFlag(c.menuMode).None? ==> ChangedFlags(st, r) == {WidthFlag(width)}
  {
    var first := match ModeFlag(c.menuMode)
      case Some(f) => Flip(st, f)
      case None => st;
    Flip(first, WidthFlag(width))
  }

  /** Toggling twice with the same mode and width restores the state. */
  lemma ToggleMenuTwice(c: Config, st: LayoutState, width: int)
    ensures ToggleMenu(c, ToggleMenu(c, st, width), width) == st
  {
    var once := ToggleMenu(c, st, width);
    SameChangeTwice(st, once, ToggleMenu(c, once, width));
  }

  /**
   * In reveal mode on a desktop-width viewport the composable flips two flags
   * where the store flips one: the overlay menu opens along with the
   * desktop flag.
   */
  lemma RevealDiffersFromStore(c: Config, cfg: LayoutStore.LayoutConfig, st: LayoutState, width: int)
    requires c.menuMode == "reveal" && cfg.menuMode == "reveal" && width > MobileMaxWidth
    ensures var r := ToggleMenu(c, st, width);
      r.overlayMenuActive == !st.overlayMenuActive && |ChangedFlags(st, r)| == 2
    ensures !IsSidebarActive(st) ==> IsSidebarActive(ToggleMenu(c, st, width))
    ensures LayoutStore.ToggleMenu(LayoutStore.Layout(cfg, st), width).state != ToggleMenu(c, st, width)
  {
  }
}

=== FILE: layout_store.dfy ===
/**
 * The layout store: the persisted look-and-feel configuration and the
 * runtime menu state, with the actions the layout components call. The
 * viewport width is a parameter; the document class toggling that
 * accompanies a theme change is not modelled.
 */
module LayoutStore {
  import opened Common
  import opened MenuFlags

  /** `LayoutConfig`; `surface` is `null` until one is chosen. */
  datatype LayoutConfig = LayoutConfig(
    preset: string,
    primary: string,
    surface: Option<string>,
    darkTheme: bool,
    menuMode: string,
    menuTheme: string,
    cardStyle: string)

  const DefaultConfig: LayoutConfig := LayoutConfig("Aura", "emerald", None, false, "static", "dark", "filled")

  datatype Layout = Layout(config: LayoutConfig, state: LayoutState)

  const InitialLayout: Layout := Layout(DefaultConfig, InitialState)

  /** The flag the store's `toggleMenu` flips for a menu mode before the width-dependent one, if any. */
  function ModeFlag(mode: string): (f: Option<Flag>)
    ensures mode == "overlay" ==> f == Some(OverlayMenuActive)
    ensures mode == "drawer" ==> f == Some(SidebarActive)
    ensures mode != "overlay" && mode != "drawer" ==> f == None
  {
    if mode == "overlay" then Some(OverlayMenuActive)
    else if mode == "drawer" then Some(SidebarActive)
    else None
  }

  /**
   * `toggleMenu`: overlay mode flips the overlay flag and drawer mode the
   * sidebar flag, each followed by the width-dependent flag; reveal mode
   * flips only the width-dependent flag and returns; any other mode flips
   * only the width-dependent flag.
   */
  function ToggleMenu(l: Layout, width: int): (r: Layout)
    ensures r.config == l.config && r.state.activeMenuItem == l.state.activeMenuItem
    ensures ModeFlag(l.config.menuMode).Some? ==>
      ChangedFlags(l.state, r.state) == {ModeFlag(l.config.menuMode).value, WidthFlag(width)}
    ensures ModeFlag(l.config.menuMode).None? ==> ChangedFlags(l.state, r.state) == {WidthFlag(width)}
  {
    var mode := l.config.menuMode;
    if mode == "reveal" then
      if width <= MobileMaxWidth then l.(state := Flip(l.state, StaticMenuMobileActive))
      else l.(state := Flip(l.state, StaticMenuDesktopInactive))
    else
      var st := if mode == "overlay" then Flip(l.state, OverlayMenuActive)
                else if mode == "drawer" then Flip(l.state, SidebarActive)
                else l.state;
      l.(state := Flip(st, WidthFlag(width)))
  }

  /** In reveal mode the toggle flips exactly one flag, whatever the width. */
  lemma RevealTogglesOneFlag(l: Layout, width: int)
    requires l.config.menuMode == "reveal"
    ensures |ChangedFlags(l.state, ToggleMenu(l, width).state)| == 1
  {
  }

  /** Toggling twice at the same width restores the layout. */
  lemma ToggleMenuTwice(l: Layout, width: int)
    ensures ToggleMenu(ToggleMenu(l, width), width) == l
  {
    var once := ToggleMenu(l, width);
    SameChangeTwice(l.state, once.state, ToggleMenu(once, width).state);
  }

  /**
   * `updateMenuMode`: the new mode is recorded and the overlay, mobile,
   * sidebar and desktop-inactive flags are all cleared; nothing else moves.
   */
  function UpdateMenuMode(l: Layout, mode: string): (r: Layout)
    ensures r.config == l.config.(menuMode := mode)
    ensures !r.state.overlayMenuActive && !r.state.staticMenuMobileActive
    ensures !r.state.sidebarActive && !r.state.staticMenuDesktopInactive
    ensures ChangedFlags(l.state, r.state) <= {OverlayMenuActive, StaticMenuMobileActive, SidebarActive, StaticMenuDesktopInactive}
    ensures r.state.activeMenuItem == l.state.activeMenuItem
    ensures !IsSidebarActive(r.state)
  {
    var st := Clear(Clear(Clear(Clear(l.state, OverlayMenuActive), StaticMenuMobileActive), SidebarActive), StaticMenuDesktopInactive);
    Layout(l.config.(menuMode := mode), st)
  }

  /** After switching to reveal mode, one toggle shows the sidebar exactly on a mobile-width viewport. */
  lemma RevealAfterModeSwitch(l: Layout, width: int)
    ensures IsSidebarActive(ToggleMenu(UpdateMenuMode(l, "reveal"), width).state) <==> width <= MobileMaxWidth
  {
    var m := UpdateMenuMode(l, "reveal");
    assert Get(m.state, WidthFlag(width)) == false;
  }

  /** `executeDarkModeToggle` (and `toggleDarkMode`, which runs it): the dark flag flips. */
  function ToggleDarkMode(l: Layout): (r: Layout)
    ensures r.config.darkTheme == !l.config.darkTheme
    ensures r.config.(darkTheme := l.config.darkTheme) == l.config && r.state == l.state
  {
    l.(config := l.config.(darkTheme := !l.config.darkTheme))
  }

  /** `updateDarkTheme`: toggle only when the requested value differs from the current one. */
  function UpdateDarkTheme(l: Layout, isDark: bool): (r: Layout)
    ensures r.config.darkTheme == isDark
    ensures l.config.darkTheme == isDark ==> r == l
    ensures r.config.(darkTheme := l.config.darkTheme) == l.config && r.state == l.state
  {
    if l.config.darkTheme != isDark then ToggleDarkMode(l) else l
  }

  /** Asking for the same theme twice is asking once. */
  lemma UpdateDarkThemeIdempotent(l: Layout, isDark: bool)
    ensures UpdateDarkTheme(UpdateDarkTheme(l, isDark), isDark) == UpdateDarkTheme(l, isDark)
  {
  }

  /** `colorSchemeDisplay`: the label the theme switch shows. */
  function ColorSchemeDisplay(l: Layout): (r: string)
    ensures r == "Dark" <==> l.config.darkTheme
    ensures r == "Light" <==> !l.config.darkTheme
  {
    if l.config.darkTheme then "Dark" else "Light"
  }

  /** `isSidebarActive` of the store. */
  function StoreSidebarActive(l: Layout): (r: bool)
    ensures r <==> l.state.overlayMenuActive || l.state.staticMenuMobileActive
  {
    IsSidebarActive(l.state)
  }

  /** The label after `updateDarkTheme` names the requested theme. */
  lemma DisplayAfterUpdate(l: Layout, isDark: bool)
    ensures ColorSchemeDisplay(UpdateDarkTheme(l, isDark)) == if isDark then "Dark" else "Light"
  {
  }

  /** `updateCardStyle`: the style is stored lower-cased. */
  function UpdateCardStyle(l: Layout, style: string): (r: Layout)
    ensures r.config.cardStyle == ToLower(style)
    ensures r.config.(cardStyle := l.config.cardStyle) == l.config && r.state == l.state
  {
    l.(config := l.config.(cardStyle := ToLower(style)))
  }

  /** `updateMenuTheme`: the theme is stored lower-cased. */
  function UpdateMenuTheme(l: Layout, theme: string): (r: Layout)
    ensures r.config.menuTheme == ToLower(theme)
    ensures r.config.(menuTheme := l.config.menuTheme) == l.config && r.state == l.state
  {
    l.(config := l.config.(menuTheme := ToLower(theme)))
  }

  /**
   * The lower-casing setters ignore letter case in their input, and setting
   * the value they stored stores it again.
   */
  lemma LowerCasingSettersIgnoreCase(l: Layout, s: string)
    ensures UpdateCardStyle(l, ToLower(s)) == UpdateCardStyle(l, s)
    ensures UpdateMenuTheme(l, ToLower(s)) == UpdateMenuTheme(l, s)
    ensures var c := UpdateCardStyle(l, s); UpdateCardStyle(c, c.config.cardStyle) == c
    ensures var m := UpdateMenuTheme(l, s); UpdateMenuTheme(m, m.config.menuTheme) == m
  {
    ToLowerIdempotent(s);
  }

  /** `updatePreset`. */
  function UpdatePreset(l: Layout, preset: string): (r: Layout)
    ensures r.config.preset == preset
    ensures r.config.(preset := l.config.preset) == l.config && r.state == l.state
  {
    l.(config := l.config.(preset := preset))
  }

  /** `updatePrimary`. */
  function UpdatePrimary(l: Layout, color: string): (r: Layout)
    ensures r.config.primary == color
    ensures r.config.(primary := l.config.primary) == l.config && r.state == l.state
  {
    l.(config := l.config.(primary := color))
  }

  /** `updateSurface`. */
  function UpdateSurface(l: Layout, surface: string): (r: Layout)
    ensures r.config.surface == Some(surface)
    ensures r.config.(surface := l.config.surface) == l.config && r.state == l.state
  {
    l.(config := l.config.(surface := Some(surface)))
  }
}

=== FILE: menu_flags.dfy ===
/**
 * The runtime layout state both layout implementations keep: seven
 * on/off flags and the active menu item. Menu actions are described by the
 * set of flags they flip.
 */
module MenuFlags {
  import opened Common

  datatype LayoutState = LayoutState(
    staticMenuDesktopInactive: bool,
    overlayMenuActive: bool,
    profileSidebarVisible: bool,
    configSidebarVisible: bool,
    staticMenuMobileActive: bool,
    menuHoverActive: bool,
    activeMenuItem: Option<string>,
    sidebarActive: bool)

  /** Every flag is off and no menu item is active. */
  const InitialState: LayoutState := LayoutState(false, false, false, false, false, false, None, false)

  /** The names of the boolean fields of `LayoutState`. */
  datatype Flag =
    | StaticMenuDesktopInactive
    | OverlayMenuActive
    | ProfileSidebarVisible
    | ConfigSidebarVisible
    | StaticMenuMobileActive
    | MenuHoverActive
    | SidebarActive

  const AllFlags: set<Flag> := {StaticMenuDesktopInactive, OverlayMenuActive, ProfileSidebarVisible,
                                ConfigSidebarVisible, StaticMenuMobileActive, MenuHoverActive, SidebarActive}

  function Get(st: LayoutState, f: Flag): bool
  {
    match f
    case StaticMenuDesktopInactive => st.staticMenuDesktopInactive
    case OverlayMenuActive => st.overlayMenuActive
    case ProfileSidebarVisible => st.profileSidebarVisible
    case ConfigSidebarVisible => st.configSidebarVisible
    case StaticMenuMobileActive => st.staticMenuMobileActive
    case MenuHoverActive => st.menuHoverActive
    case SidebarActive => st.sidebarActive
  }

  /** `layoutState.<f> = !layoutState.<f>`. */
  function Flip(st: LayoutState, f: Flag): (r: LayoutState)
    ensures Get(r, f) == !Get(st, f)
    ensures forall g :: g != f ==> Get(r, g) == Get(st, g)
    ensures r.activeMenuItem == st.activeMenuItem
  {
    match f
    case StaticMenuDesktopInactive => st.(staticMenuDesktopInactive := !st.staticMenuDesktopInactive)
    case OverlayMenuActive => st.(overlayMenuActive := !st.overlayMenuActive)
    case ProfileSidebarVisible => st.(profileSidebarVisible := !st.profileSidebarVisible)
    case ConfigSidebarVisible => st.(configSidebarVisible := !st.configSidebarVisible)
    case StaticMenuMobileActive => st.(staticMenuMobileActive := !st.staticMenuMobileActive)
    case MenuHoverActive => st.(menuHoverActive := !st.menuHoverActive)
    case SidebarActive => st.(sidebarActive := !st.sidebarActive)
  }

  /** `layoutState.<f> = false`. */
  function Clear(st: LayoutState, f: Flag): (r: LayoutState)
    ensures !Get(r, f)
    ensures forall g :: g != f ==> Get(r, g) == Get(st, g)
    ensures r.activeMenuItem == st.activeMenuItem
  {
    if Get(st, f) then Flip(st, f) else st
  }

  /** The flags whose values differ between two states. */
  function ChangedFlags(a: LayoutState, b: LayoutState): (r: set<Flag>)
    ensures forall f :: f in r <==> Get(a, f) != Get(b, f)
  {
    set f | f in AllFlags && Get(a, f) != Get(b, f)
  }

  /** Two states that agree on every flag and on the active item are the same state. */
  lemma SameFlagsSameState(a: LayoutState, b: LayoutState)
    requires ChangedFlags(a, b) == {} && a.activeMenuItem == b.activeMenuItem
    ensures a == b
  {
    assert Get(a, StaticMenuDesktopInactive) == Get(b, StaticMenuDesktopInactive);
    assert Get(a, OverlayMenuActive) == Get(b, OverlayMenuActive);
    assert Get(a, ProfileSidebarVisible) == Get(b, ProfileSidebarVisible);
    assert Get(a, ConfigSidebarVisible) == Get(b, ConfigSidebarVisible);
    assert Get(a, StaticMenuMobileActive) == Get(b, StaticMenuMobileActive);
    assert Get(a, MenuHoverActive) == Get(b, MenuHoverActive);
    assert Get(a, SidebarActive) == Get(b, SidebarActive);
  }

  /** Flipping the same set of flags twice restores the state. */
  lemma SameChangeTwice(a: LayoutState, b: LayoutState, c: LayoutState)
    requires ChangedFlags(a, b) == ChangedFlags(b, c)
    requires a.activeMenuItem == b.activeMenuItem == c.activeMenuItem
    ensures a == c
  {
    forall f
      ensures Get(a, f) == Get(c, f)
    {
      assert f in ChangedFlags(a, b) <==> f in ChangedFlags(b, c);
    }
    SameFlagsSameState(a, c);
  }

  /** Viewports at most this wide count as mobile. */
  const MobileMaxWidth: int := 991

  /** The flag a width-dependent toggle acts on: the desktop flag above the breakpoint, the mobile flag otherwise. */
  function WidthFlag(width: int): (f: Flag)
    ensures f == StaticMenuDesktopInactive <==> width > MobileMaxWidth
    ensures f == StaticMenuMobileActive <==> width <= MobileMaxWidth
  {
    if width > MobileMaxWidth then StaticMenuDesktopInactive else StaticMenuMobileActive
  }

  /** `isSidebarActive`: the overlay menu or the mobile static menu is showing. */
  function IsSidebarActive(st: LayoutState): (r: bool)
    ensures r <==> st.overlayMenuActive || st.staticMenuMobileActive
  {
    st.overlayMenuActive || st.staticMenuMobileActive
  }
}

=== FILE: mock_users.dfy ===
/**
 * The backend's in-memory user store: a dictionary from user id to user.
 * A Python dictionary remembers insertion order, and the lookups by e-mail
 * and Google id scan its values in that order, so the store is a sequence of
 * users whose ids are pairwise distinct, the id being the key. The fresh
 * UUID and the clock reading are parameters.
 */
module MockUsers {
  import opened Common

  /** `UserInDB`. The e-mail is plain text: `EmailStr`'s format check is not modelled. */
  datatype UserInDB = UserInDB(
    id: string,
    email: string,
    name: string,
    picture: Option<string>,
    googleId: string,
    createdAt: string,
    lastLogin: string)

  /** The dictionary's values in insertion order. */
  type UserMap = seq<UserInDB>

  /** Every key occurs once. */
  predicate KeysUnique(m: UserMap)
  {
    forall i, j :: 0 <= i < j < |m| ==> m[i].id != m[j].id
  }

  predicate HasKey(m: UserMap, id: string)
  {
    exists i :: 0 <= i < |m| && m[i].id == id
  }

  function HasUserId(id: string): UserInDB -> bool
  {
    (u: UserInDB) => u.id == id
  }

  function HasEmail(email: string): UserInDB -> bool
  {
    (u: UserInDB) => u.email == email
  }

  function HasGoogleId(googleId: string): UserInDB -> bool
  {
    (u: UserInDB) => u.googleId == googleId
  }

  /** The first value satisfying `p`, in insertion order: `next((u for u in values() if p(u)), None)`. */
  function FirstUser(m: UserMap, p: UserInDB -> bool): (r: Option<UserInDB>)
    ensures r.Some? ==> p(r.value) && exists i :: (0 <= i < |m| && m[i] == r.value
                                                   && forall j :: 0 <= j < i ==> !p(m[j]))
    ensures r.None? <==> forall i :: 0 <= i < |m| ==> !p(m[i])
  {
    match FirstIndex(m, p)
    case None => None
    case Some(i) => Some(m[i])
  }

  /** `get_user_by_email`. */
  function GetUserByEmail(m: UserMap, email: string): (r: Option<UserInDB>)
    ensures r.Some? ==> r.value.email == email && r.value in m
    ensures r.Some? ==> exists i :: (0 <= i < |m| && m[i] == r.value
                                     && forall j :: 0 <= j < i ==> m[j].email != email)
    ensures r.None? <==> forall i :: 0 <= i < |m| ==> m[i].email != email
  {
    FirstUser(m, HasEmail(email))
  }

  /** `get_user_by_google_id`. */
  function GetUserByGoogleId(m: UserMap, googleId: string): (r: Option<UserInDB>)
    ensures r.Some? ==> r.value.googleId == googleId && r.value in m
    ensures r.Some? ==> exists i :: (0 <= i < |m| && m[i] == r.value
                                     && forall j :: 0 <= j < i ==> m[j].googleId != googleId)
    ensures r.None? <==> forall i :: 0 <= i < |m| ==> m[i].googleId != googleId
  {
    FirstUser(m, HasGoogleId(googleId))
  }

  /** `get_user_by_id`: the dictionary's `get`, the value stored under the key. */
  function GetUserById(m: UserMap, id: string): (r: Option<UserInDB>)
    requires KeysUnique(m)
    ensures r.Some? <==> HasKey(m, id)
    ensures r.Some? ==> r.value.id == id && r.value in m
    ensures forall i :: 0 <= i < |m| && m[i].id == id ==> r == Some(m[i])
  {
    FirstUser(m, HasUserId(id))
  }

  /**
   * `mock_users[u.id] = u`: an existing key keeps its place and gets the new
   * value; a new key is added at the end.
   */
  function Put(m: UserMap, u: UserInDB): (r: UserMap)
    requires KeysUnique(m)
    ensures KeysUnique(r)
    ensures HasKey(m, u.id) ==> |r| == |m|
    ensures FirstIndex(m, HasUserId(u.id)).Some? ==> r == m[FirstIndex(m, HasUserId(u.id)).value := u]
    ensures !HasKey(m, u.id) ==> r == m + [u]
  {
    match FirstIndex(m, HasUserId(u.id))
    case None => m + [u]
    case Some(i) =>
      var r := m[i := u];
      assert forall k :: 0 <= k < |m| && k != i ==> r[k] == m[k];
      r
  }

  /** After a put, the key holds the new value and every other key still holds its old one. */
  lemma PutThenGet(m: UserMap, u: UserInDB, id: string)
    requires KeysUnique(m)
    ensures GetUserById(Put(m, u), id) == if id == u.id then Some(u) else GetUserById(m, id)
  {
    var r := Put(m, u);
    if id == u.id {
      match FirstIndex(m, HasUserId(u.id))
      case None => assert r[|m|] == u;
      case Some(i) => assert r[i] == u;
    } else {
      match FirstIndex(m, HasUserId(u.id))
      case None =>
        if HasKey(m, id) {
          var k :| 0 <= k < |m| && m[k].id == id;
          assert r[k] == m[k];
        } else {
          assert forall k :: 0 <= k < |r| ==> r[k].id != id by {
            forall k | 0 <= k < |r| ensures r[k].id != id {
              if k < |m| { assert r[k] == m[k]; }
            }
          }
        }
      case Some(i) =>
        if HasKey(m, id) {
          var k :| 0 <= k < |m| && m[k].id == id;
          assert k != i && r[k] == m[k];
        } else {
          assert forall k :: 0 <= k < |r| ==> r[k].id != id by {
            forall k | 0 <= k < |r| ensures r[k].id != id {
              if k != i { assert r[k] == m[k]; }
            }
          }
        }
    }
  }

  /**
   * `create_user`: a user with the generated id, created and last logged in
   * at the same instant, stored under its id and returned.
   */
  function CreateUser(m: UserMap, email: string, name: string, googleId: string, picture: Option<string>,
                      id: string, now: string): (r: Updated<UserMap, UserInDB>)
    requires KeysUnique(m)
    ensures r.response == UserInDB(id, email, name, picture, googleId, now, now)
    ensures r.response.createdAt == r.response.lastLogin
    ensures KeysUnique(r.store)
    ensures !HasKey(m, id) ==> r.store == m + [r.response]
  {
    var u := UserInDB(id, email, name, picture, googleId, now, now);
    Updated(Put(m, u), u)
  }

  /** A created user is what a lookup of its id returns; the other users are untouched. */
  lemma CreatedUserIsFound(m: UserMap, email: string, name: string, googleId: string, picture: Option<string>,
                           id: string, now: string, other: string)
    requires KeysUnique(m)
    ensures var r := CreateUser(m, email, name, googleId, picture, id, now);
      && GetUserById(r.store, id) == Some(r.response)
      && (other != id ==> GetUserById(r.store, other) == GetUserById(m, other))
  {
    var u := UserInDB(id, email, name, picture, googleId, now, now);
    PutThenGet(m, u, id);
    PutThenGet(m, u, other);
  }

  /**
   * `update_last_login`: an unknown id yields `None` and no change; a known
   * one gets its last login set to the clock reading, and the updated user is
   * returned.
   */
  function UpdateLastLogin(m: UserMap, id: string, now: string): (r: Updated<UserMap, Option<UserInDB>>)
    requires KeysUnique(m)
    ensures r.response.None? <==> !HasKey(m, id)
    ensures r.response.None? ==> r.store == m
    ensures r.response.Some? ==> r.response == Some(GetUserById(m, id).value.(lastLogin := now))
    ensures KeysUnique(r.store)
  {
    match GetUserById(m, id)
    case None => Updated(m, None)
    case Some(u) =>
      var u' := u.(lastLogin := now);
      Updated(Put(m, u'), Some(u'))
  }

  /** Updating the last login touches that one field of that one user and nothing else. */
  lemma UpdateLastLoginTouchesOneField(m: UserMap, id: string, now: string)
    requires KeysUnique(m) && HasKey(m, id)
    ensures var r := UpdateLastLogin(m, id, now);
      && |r.store| == |m|
      && forall k :: 0 <= k < |m| ==>
           r.store[k] == if m[k].id == id then m[k].(lastLogin := now) else m[k]
  {
    var i :| 0 <= i < |m| && m[i].id == id;
    var u := m[i];
    assert GetUserById(m, id) == Some(u);
    var u' := u.(lastLogin := now);
    assert FirstIndex(m, HasUserId(id)) == Some(i) by {
      var f := FirstIndex(m, HasUserId(id));
      assert f.Some?;
      assert m[f.value].id == id;
    }
    assert Put(m, u') == m[i := u'];
  }

  /**
   * The sign-in step of the OAuth callback: the first user with the Google id
   * has its last login updated, and when there is none a new user is created.
   * The user the callback goes on with is returned with the store.
   */
  function SignIn(m: UserMap, googleId: string, email: string, name: string, picture: Option<string>,
                  freshId: string, now: string): (r: Updated<UserMap, UserInDB>)
    requires KeysUnique(m)
    ensures KeysUnique(r.store)
    ensures r.response.googleId == googleId && r.response.lastLogin == now
    ensures GetUserByGoogleId(m, googleId).None? ==> r.response.id == freshId && r.response.createdAt == now
    ensures GetUserByGoogleId(m, googleId).Some? ==> r.response == GetUserByGoogleId(m, googleId).value.(lastLogin := now)
  {
    match GetUserByGoogleId(m, googleId)
    case None => CreateUser(m, email, name, googleId, picture, freshId, now)
    case Some(u) =>
      assert GetUserById(m, u.id) == Some(u);
      var upd := UpdateLastLogin(m, u.id, now);
      Updated(upd.store, u.(lastLogin := now))
  }

  /** Every entry after a put is the new value or the entry that was at that place. */
  lemma PutEntries(m: UserMap, u: UserInDB)
    requires KeysUnique(m)
    ensures forall k :: 0 <= k < |Put(m, u)| ==> Put(m, u)[k] == u || (k < |m| && Put(m, u)[k] == m[k])
  {
  }

  /** After signing in, a lookup of the Google id finds exactly the user the sign-in returned. */
  lemma SignInFindsUser(m: UserMap, googleId: string, email: string, name: string, picture: Option<string>,
                        freshId: string, now: string)
    requires KeysUnique(m)
    ensures var r := SignIn(m, googleId, email, name, picture, freshId, now);
      GetUserByGoogleId(r.store, googleId) == Some(r.response)
  {
    if GetUserByGoogleId(m, googleId).None? {
      NewUserFound(m, UserInDB(freshId, email, name, picture, googleId, now, now));
    } else {
      ReturningUserFound(m, googleId, now);
    }
  }

  /** A put of a user whose Google id nobody has makes that user the first match. */
  lemma NewUserFound(m: UserMap, u: UserInDB)
    requires KeysUnique(m)
    requires forall i :: 0 <= i < |m| ==> m[i].googleId != u.googleId
    ensures GetUserByGoogleId(Put(m, u), u.googleId) == Some(u)
  {
    var r := Put(m, u);
    PutEntries(m, u);
    assert exists k :: 0 <= k < |r| && r[k] == u by {
      if HasKey(m, u.id) {
        var k := FirstIndex(m, HasUserId(u.id)).value;
        assert r[k] == u;
      } else {
        assert r[|m|] == u;
      }
    }
    var found := GetUserByGoogleId(r, u.googleId);
    var i :| 0 <= i < |r| && r[i] == found.value;
  }

  /** Updating the last login of the first user with a Google id keeps that user the first match. */
  lemma ReturningUserFound(m: UserMap, googleId: string, now: string)
    requires KeysUnique(m) && GetUserByGoogleId(m, googleId).Some?
    ensures var u := GetUserByGoogleId(m, googleId).value;
      GetUserById(m, u.id) == Some(u)
      && GetUserByGoogleId(UpdateLastLogin(m, u.id, now).store, googleId) == Some(u.(lastLogin := now))
  {
    var u := GetUserByGoogleId(m, googleId).value;
    var k := FirstIndex(m, HasGoogleId(googleId)).value;
    assert m[k] == u;
    var u' := u.(lastLogin := now);
    assert FirstIndex(m, HasUserId(u.id)) == Some(k) by {
      var f := FirstIndex(m, HasUserId(u.id));
      assert m[f.value].id == u.id;
    }
    var r := UpdateLastLogin(m, u.id, now).store;
    assert r == m[k := u'];
    assert r[k].googleId == googleId;
    var found := GetUserByGoogleId(r, googleId);
    var i :| 0 <= i < |r| && r[i] == found.value && forall j :: 0 <= j < i ==> r[j].googleId != googleId;
    assert i == k;
  }

  /**
   * Signing in a second time with the same Google id creates nobody: it
   * returns the same user and leaves the number of users as it was.
   */
  lemma SignInTwiceCreatesOnce(m: UserMap, googleId: string, email: string, name: string, picture: Option<string>,
                               freshId: string, now: string, freshId2: string, now2: string)
    requires KeysUnique(m)
    ensures var first := SignIn(m, googleId, email, name, picture, freshId, now);
      var second := SignIn(first.store, googleId, email, name, picture, freshId2, now2);
      && second.response.id == first.response.id
      && |second.store| == |first.store|
  {
    var first := SignIn(m, googleId, email, name, picture, freshId, now);
    SignInFindsUser(m, googleId, email, name, picture, freshId, now);
    var u := first.response;
    assert GetUserById(first.store, u.id) == Some(u);
    UpdateLastLoginTouchesOneField(first.store, u.id, now2);
  }
}

=== FILE: models.dfy ===
/**
 * The records the trading backend exchanges with the browser, with the field
 * constraints its Pydantic models enforce written as validity predicates.
 * Prices and quantities are exact reals: the source's floating point is not
 * modelled.
 */
module Models {

  /** `Literal["buy", "sell"]`: no other side can be represented. */
  datatype Side = Buy | Sell

  /** `Literal["pending", "executed", "cancelled"]`. */
  datatype TradeStatus = Pending | Executed | Cancelled

  /** The status a trade gets when none is given. */
  const DefaultStatus: TradeStatus := Pending

  /** The body of a trade-creation request (`TradeCreate`, i.e. `TradeBase`). */
  datatype TradeCreate = TradeCreate(symbol: string, side: Side, price: real, quantity: real)

  /** A stored trade; `timestamp` is an ISO-8601 text as produced by `datetime.isoformat`. */
  datatype Trade = Trade(
    id: string,
    symbol: string,
    side: Side,
    price: real,
    quantity: real,
    status: TradeStatus,
    timestamp: string)

  /** A held position in one symbol. */
  datatype Position = Position(
    id: string,
    symbol: string,
    quantity: real,
    averagePrice: real,
    currentPrice: real,
    unrealizedPnL: real,
    realizedPnL: real)

  /** One page of trades as returned by the list endpoint. */
  datatype PaginatedTrades = PaginatedTrades(
    items: seq<Trade>,
    total: int,
    page: int,
    limit: int,
    totalPages: int)

  /** `Field(..., min_length=1, max_length=10)` on a symbol. */
  predicate ValidSymbol(symbol: string)
  {
    1 <= |symbol| <= 10
  }

  /** The constraints of `TradeBase`: symbol length, strictly positive price and quantity. */
  predicate ValidTradeCreate(c: TradeCreate)
  {
    ValidSymbol(c.symbol) && c.price > 0.0 && c.quantity > 0.0
  }

  /** A trade satisfies every `TradeBase` constraint; side and status are valid by construction. */
  predicate ValidTrade(t: Trade)
  {
    ValidSymbol(t.symbol) && t.price > 0.0 && t.quantity > 0.0
  }

  /**
   * The constraints of `Position`: symbol length and strictly positive
   * average and current prices. Quantity and both P&L figures are free.
   */
  predicate ValidPosition(p: Position)
  {
    ValidSymbol(p.symbol) && p.averagePrice > 0.0 && p.currentPrice > 0.0
  }

  predicate AllValidTrades(ts: seq<Trade>)
  {
    forall i :: 0 <= i < |ts| ==> ValidTrade(ts[i])
  }

  predicate AllValidPositions(ps: seq<Position>)
  {
    forall i :: 0 <= i < |ps| ==> ValidPosition(ps[i])
  }

  /** The trade a valid creation request becomes, given the id and clock reading the server supplies. */
  function NewTrade(c: TradeCreate, id: string, now: string): (t: Trade)
    ensures t.status == DefaultStatus && t.id == id && t.timestamp == now
    ensures t.symbol == c.symbol && t.side == c.side
    ensures t.price == c.price && t.quantity == c.quantity
    ensures ValidTradeCreate(c) <==> ValidTrade(t)
  {
    Trade(id, c.symbol, c.side, c.price, c.quantity, Pending, now)
  }

  /** The match tests the lookups use: by trade id, by position symbol. */
  function HasId(id: string): Trade -> bool
  {
    (t: Trade) => t.id == id
  }

  function HasSymbol(symbol: string): Position -> bool
  {
    (p: Position) => p.symbol == symbol
  }

  function LacksSymbol(symbol: string): Position -> bool
  {
    (p: Position) => p.symbol != symbol
  }
}

=== FILE: positions_router.dfy ===
/**
 * The backend's position endpoints over the in-memory position list: list
 * everything, look a position up by symbol, and close (remove) a position.
 */
module PositionsRouter {
  import opened Common
  import opened Models

  const PositionNotFound: HttpError := HttpError(404, "Position not found")

  /** `get_positions`: the stored list itself, in its stored order. */
  function GetPositions(stored: seq<Position>): (r: seq<Position>)
    ensures |r| == |stored| && forall i :: 0 <= i < |r| ==> r[i] == stored[i]
  {
    stored
  }

  /** `get_position`: the first position with the symbol, or 404. */
  function GetPosition(stored: seq<Position>, symbol: string): (r: Result<Position, HttpError>)
    ensures r.Ok? ==> r.value.symbol == symbol
    ensures r.Ok? ==> exists i :: (0 <= i < |stored| && stored[i] == r.value
                                   && forall j :: 0 <= j < i ==> stored[j].symbol != symbol)
    ensures r.Err? <==> forall i :: 0 <= i < |stored| ==> stored[i].symbol != symbol
    ensures r.Err? ==> r.error == PositionNotFound
  {
    match FirstIndex(stored, HasSymbol(symbol))
    case None => Err(PositionNotFound)
    case Some(i) => Ok(stored[i])
  }

  /**
   * `close_position`: look the position up as `get_position` does, then
   * delete it with `list.remove`, which drops the first element equal to it,
   * and return it.
   */
  function ClosePosition(stored: seq<Position>, symbol: string): (r: Result<Updated<seq<Position>, Position>, HttpError>)
    ensures r.Err? <==> GetPosition(stored, symbol).Err?
    ensures r.Err? ==> r.error == PositionNotFound
    ensures r.Ok? ==> r.value.response == GetPosition(stored, symbol).value
    ensures r.Ok? ==> |r.value.store| == |stored| - 1
  {
    match GetPosition(stored, symbol)
    case Err(e) => Err(e)
    case Ok(p) =>
      assert p in stored;
      Ok(Updated(RemoveFirst(stored, p), p))
  }

  /**
   * A successful close removes exactly the first position with the symbol:
   * the positions before it and after it stay, in their order, and the one
   * returned is the one removed.
   */
  lemma ClosePositionRemovesFirstMatch(stored: seq<Position>, symbol: string)
    requires GetPosition(stored, symbol).Ok?
    ensures FirstIndex(stored, HasSymbol(symbol)).Some?
    ensures var i := FirstIndex(stored, HasSymbol(symbol)).value;
      var r := ClosePosition(stored, symbol);
      && r.Ok?
      && r.value.response == stored[i]
      && r.value.store == stored[..i] + stored[i + 1..]
  {
    var i := FirstIndex(stored, HasSymbol(symbol)).value;
    var p := stored[i];
    assert GetPosition(stored, symbol) == Ok(p);
    forall j | 0 <= j < i
      ensures stored[j] != p
    {
      assert !HasSymbol(symbol)(stored[j]);
    }
    RemoveFirstIsRemoveAt(stored, p, i);
  }

  /** Closing the only position with a symbol makes a lookup of it fail; otherwise the next one is found. */
  lemma CloseThenLookup(stored: seq<Position>, symbol: string)
    requires GetPosition(stored, symbol).Ok?
    ensures var after := ClosePosition(stored, symbol).value.store;
      Count(after, HasSymbol(symbol)) == Count(stored, HasSymbol(symbol)) - 1
      && (GetPosition(after, symbol).Err? <==> Count(stored, HasSymbol(symbol)) == 1)
  {
    ClosePositionRemovesFirstMatch(stored, symbol);
    var i := FirstIndex(stored, HasSymbol(symbol)).value;
    CountRemoveAt(stored, i, HasSymbol(symbol));
  }

  /**
   * An absent symbol is refused by the lookup and by the close alike; the
   * error carries no new list, so the stored one stays as it was.
   */
  lemma CloseAbsentIsRefused(stored: seq<Position>, symbol: string)
    requires forall i :: 0 <= i < |stored| ==> stored[i].symbol != symbol
    ensures GetPosition(stored, symbol) == Err(PositionNotFound)
    ensures ClosePosition(stored, symbol) == Err(PositionNotFound)
  {
  }

  /** Closing a position keeps every remaining position valid. */
  lemma CloseKeepsValidity(stored: seq<Position>, symbol: string)
    requires AllValidPositions(stored)
    ensures var r := ClosePosition(stored, symbol); r.Ok? ==> AllValidPositions(r.value.store) && ValidPosition(r.value.response)
  {
    if GetPosition(stored, symbol).Ok? {
      ClosePositionRemovesFirstMatch(stored, symbol);
      var i := FirstIndex(stored, HasSymbol(symbol)).value;
      var after := ClosePosition(stored, symbol).value.store;
      forall k | 0 <= k < |after|
        ensures ValidPosition(after[k])
      {
        if k < i {
          assert after[k] == stored[k];
        } else {
          assert after[k] == stored[k + 1];
        }
      }
    }
  }
}

=== FILE: trade_order.dfy ===
/**
 * Ordering trades by timestamp. The backend sorts with Python's `sorted`
 * keyed on the timestamp text, so the order is the lexicographic order of
 * strings by character code, and `reverse=True` gives a descending sort that
 * still keeps equal keys in their original order.
 */
module TradeOrder {
  import opened Models

  /** Python's `a < b` on strings: lexicographic by character code, a proper prefix first. */
  predicate LexLess(a: string, b: string)
    decreases |a|
  {
    if |a| == 0 then |b| > 0
    else if |b| == 0 then false
    else if a[0] < b[0] then true
    else if a[0] > b[0] then false
    else LexLess(a[1..], b[1..])
  }

  /** Python's `a <= b` on strings. */
  predicate LexLeq(a: string, b: string)
  {
    a == b || LexLess(a, b)
  }

  lemma {:induction false} LexLessIrreflexive(a: string)
    ensures !LexLess(a, a)
    decreases |a|
  {
    if |a| > 0 {
      LexLessIrreflexive(a[1..]);
    }
  }

  lemma {:induction false} LexLessTransitive(a: string, b: string, c: string)
    requires LexLess(a, b) && LexLess(b, c)
    ensures LexLess(a, c)
    decreases |a|
  {
    if |a| > 0 && a[0] == b[0] && b[0] == c[0] {
      LexLessTransitive(a[1..], b[1..], c[1..]);
    }
  }

  /** Any two distinct strings are ordered one way or the other. */
  lemma {:induction false} LexLessTotal(a: string, b: string)
    ensures a == b || LexLess(a, b) || LexLess(b, a)
    decreases |a|
  {
    if |a| > 0 && |b| > 0 && a[0] == b[0] {
      LexLessTotal(a[1..], b[1..]);
      if a[1..] == b[1..] {
        assert a == [a[0]] + a[1..] && b == [b[0]] + b[1..];
      }
    }
  }

  lemma LexLessAsymmetric(a: string, b: string)
    requires LexLess(a, b)
    ensures !LexLess(b, a)
  {
    if LexLess(b, a) {
      LexLessTransitive(a, b, a);
      LexLessIrreflexive(a);
    }
  }

  /**
   * `x` goes strictly before `y` in the requested direction: an earlier
   * timestamp when ascending, a later one when descending.
   */
  predicate Before(x: Trade, y: Trade, descending: bool)
  {
    if descending then LexLess(y.timestamp, x.timestamp) else LexLess(x.timestamp, y.timestamp)
  }

  /** No trade is placed after one it should precede. */
  predicate SortedBy(s: seq<Trade>, descending: bool)
  {
    forall i, j :: 0 <= i < j < |s| ==> !Before(s[j], s[i], descending)
  }

  lemma BeforeAsymmetric(x: Trade, y: Trade, descending: bool)
    requires Before(x, y, descending)
    ensures !Before(y, x, descending)
  {
    if descending {
      LexLessAsymmetric(y.timestamp, x.timestamp);
    } else {
      LexLessAsymmetric(x.timestamp, y.timestamp);
    }
  }

  /** "Not after" is transitive, because the underlying string order is total. */
  lemma NotBeforeTransitive(x: Trade, y: Trade, z: Trade, descending: bool)
    requires !Before(y, x, descending) && !Before(z, y, descending)
    ensures !Before(z, x, descending)
  {
    LexLessTotal(x.timestamp, y.timestamp);
    LexLessTotal(y.timestamp, z.timestamp);
    if Before(z, x, descending) {
      if descending {
        LexLessTransitive(x.timestamp, z.timestamp, y.timestamp);
        LexLessIrreflexive(y.timestamp);
        LexLessAsymmetric(x.timestamp, y.timestamp);
      } else {
        LexLessTransitive(z.timestamp, x.timestamp, y.timestamp);
        LexLessIrreflexive(y.timestamp);
        LexLessAsymmetric(y.timestamp, z.timestamp);
      }
    }
  }

  /**
   * Inserts `x` after every trade that goes strictly before it and before the
   * first that does not, so `x` precedes the trades with an equal key.
   */
  function Insert(x: Trade, s: seq<Trade>, descending: bool): (r: seq<Trade>)
    ensures |r| == |s| + 1
  {
    if |s| == 0 then [x]
    else if Before(s[0], x, descending) then [s[0]] + Insert(x, s[1..], descending)
    else [x] + s
  }

  /** Inserting adds `x` and loses nothing. */
  lemma {:induction false} InsertPermutes(x: Trade, s: seq<Trade>, descending: bool)
    ensures multiset(Insert(x, s, descending)) == multiset(s) + multiset{x}
    decreases |s|
  {
    if |s| > 0 {
      InsertPermutes(x, s[1..], descending);
      assert s == [s[0]] + s[1..];
    }
  }

  /** Prepending a trade that no element should precede keeps a list sorted. */
  lemma SortedCons(h: Trade, t: seq<Trade>, descending: bool)
    requires SortedBy(t, descending)
    requires forall j :: 0 <= j < |t| ==> !Before(t[j], h, descending)
    ensures SortedBy([h] + t, descending)
  {
    var s := [h] + t;
    forall i, j | 0 <= i < j < |s|
      ensures !Before(s[j], s[i], descending)
    {
      assert s[j] == t[j - 1];
      if i > 0 {
        assert s[i] == t[i - 1];
      }
    }
  }

  lemma SortedTail(s: seq<Trade>, descending: bool)
    requires |s| > 0 && SortedBy(s, descending)
    ensures SortedBy(s[1..], descending)
  {
    forall i, j | 0 <= i < j < |s[1..]|
      ensures !Before(s[1..][j], s[1..][i], descending)
    {
      assert s[1..][j] == s[j + 1] && s[1..][i] == s[i + 1];
    }
  }

  /** Inserting into a sorted list gives a sorted list. */
  lemma {:induction false} InsertSorted(x: Trade, s: seq<Trade>, descending: bool)
    requires SortedBy(s, descending)
    ensures SortedBy(Insert(x, s, descending), descending)
    decreases |s|
  {
    if |s| == 0 {
    } else if Before(s[0], x, descending) {
      var rest := Insert(x, s[1..], descending);
      InsertPermutes(x, s[1..], descending);
      SortedTail(s, descending);
      InsertSorted(x, s[1..], descending);
      assert s == [s[0]] + s[1..];
      forall j | 0 <= j < |rest|
        ensures !Before(rest[j], s[0], descending)
      {
        assert rest[j] in multiset(rest);
        if rest[j] == x {
          BeforeAsymmetric(s[0], x, descending);
        } else {
          assert rest[j] in multiset(s[1..]);
          var k :| 0 <= k < |s[1..]| && s[1..][k] == rest[j];
          assert s[k + 1] == rest[j];
        }
      }
      SortedCons(s[0], rest, descending);
    } else {
      forall k | 0 <= k < |s|
        ensures !Before(s[k], x, descending)
      {
        if k > 0 {
          NotBeforeTransitive(x, s[0], s[k], descending);
        }
      }
      SortedCons(x, s, descending);
    }
  }

  /** Stable insertion sort of the trades by timestamp in the requested direction. */
  function SortByTimestamp(s: seq<Trade>, descending: bool): (r: seq<Trade>)
    ensures |r| == |s|
  {
    if |s| == 0 then []
    else Insert(s[0], SortByTimestamp(s[1..], descending), descending)
  }

  /** The sort's result is a permutation of its input. */
  lemma {:induction false} SortPermutes(s: seq<Trade>, descending: bool)
    ensures multiset(SortByTimestamp(s, descending)) == multiset(s)
    decreases |s|
  {
    if |s| > 0 {
      SortPermutes(s[1..], descending);
      InsertPermutes(s[0], SortByTimestamp(s[1..], descending), descending);
      assert s == [s[0]] + s[1..];
    }
  }

  /** Inserting a valid trade into valid trades gives valid trades. */
  lemma {:induction false} InsertKeepsValidity(x: Trade, s: seq<Trade>, descending: bool)
    requires ValidTrade(x) && AllValidTrades(s)
    ensures AllValidTrades(Insert(x, s, descending))
    decreases |s|
  {
    if |s| > 0 && Before(s[0], x, descending) {
      InsertKeepsValidity(x, s[1..], descending);
      var rest := Insert(x, s[1..], descending);
      assert forall k :: 0 < k < |rest| + 1 ==> ([s[0]] + rest)[k] == rest[k - 1];
    }
  }

  /** Sorting valid trades gives valid trades. */
  lemma {:induction false} SortKeepsValidity(s: seq<Trade>, descending: bool)
    requires AllValidTrades(s)
    ensures AllValidTrades(SortByTimestamp(s, descending))
    decreases |s|
  {
    if |s| > 0 {
      SortKeepsValidity(s[1..], descending);
      InsertKeepsValidity(s[0], SortByTimestamp(s[1..], descending), descending);
    }
  }

  /** The sort's result is ordered in the requested direction. */
  lemma {:induction false} SortByTimestampSorted(s: seq<Trade>, descending: bool)
    ensures SortedBy(SortByTimestamp(s, descending), descending)
    decreases |s|
  {
    if |s| > 0 {
      SortByTimestampSorted(s[1..], descending);
      InsertSorted(s[0], SortByTimestamp(s[1..], descending), descending);
    }
  }

  /**
   * Sorted descending means the timestamps never increase along the list;
   * sorted ascending means they never decrease.
   */
  lemma SortedMeansMonotone(s: seq<Trade>, descending: bool)
    requires SortedBy(s, descending)
    ensures descending ==> forall i, j :: 0 <= i < j < |s| ==> LexLeq(s[j].timestamp, s[i].timestamp)
    ensures !descending ==> forall i, j :: 0 <= i < j < |s| ==> LexLeq(s[i].timestamp, s[j].timestamp)
  {
    forall i, j | 0 <= i < j < |s|
      ensures descending ==> LexLeq(s[j].timestamp, s[i].timestamp)
      ensures !descending ==> LexLeq(s[i].timestamp, s[j].timestamp)
    {
      LexLessTotal(s[i].timestamp, s[j].timestamp);
    }
  }
}

=== FILE: trades_router.dfy ===
/**
 * The backend's trade endpoints over the in-memory trade list. Each handler
 * takes the current list and returns either an HTTP error or its response
 * (together with the new list, for the handlers that change it). The
 * generated UUID and the clock reading are parameters.
 */
module TradesRouter {
  import opened Common
  import opened Models
  import opened TradeOrder

  /** Query parameters of `GET /api/trades`; an omitted `sortOrder` is `None`. */
  datatype TradesQuery = TradesQuery(page: int, limit: int, sortBy: Option<string>, sortOrder: Option<string>)

  /** The ranges FastAPI enforces before the handler runs: `page >= 1`, `1 <= limit <= 100`. */
  predicate QueryAccepted(q: TradesQuery)
  {
    q.page >= 1 && 1 <= q.limit <= 100
  }

  /** `sortOrder` defaults to `"desc"`, and only exactly `"desc"` reverses the sort. */
  predicate Descending(q: TradesQuery)
  {
    q.sortOrder.None? || q.sortOrder.value == "desc"
  }

  /** The query string as sent, where `page` and `limit` may be omitted. */
  datatype RawTradesQuery = RawTradesQuery(page: Option<int>, limit: Option<int>, sortBy: Option<string>, sortOrder: Option<string>)

  /** The values FastAPI gives an omitted `page` and an omitted `limit`. */
  const DefaultPage: int := 1
  const DefaultLimit: int := 10

  /** FastAPI fills in the declared defaults before it checks the ranges. */
  function ResolveQuery(raw: RawTradesQuery): (q: TradesQuery)
    ensures raw.page.None? ==> q.page == DefaultPage
    ensures raw.page.Some? ==> q.page == raw.page.value
    ensures raw.limit.None? ==> q.limit == DefaultLimit
    ensures raw.limit.Some? ==> q.limit == raw.limit.value
    ensures q.sortBy == raw.sortBy && q.sortOrder == raw.sortOrder
  {
    TradesQuery(
      if raw.page.Some? then raw.page.value else DefaultPage,
      if raw.limit.Some? then raw.limit.value else DefaultLimit,
      raw.sortBy,
      raw.sortOrder)
  }

  /** An omitted parameter is always in range, so only the parameters given can make a request fail. */
  lemma OmittedParamsAccepted(raw: RawTradesQuery)
    ensures QueryAccepted(ResolveQuery(raw)) <==>
      (raw.page.None? || raw.page.value >= 1) && (raw.limit.None? || 1 <= raw.limit.value <= 100)
  {
  }

  /**
   * FastAPI's response to a query parameter outside its declared range. Only
   * the status is modelled: FastAPI's body lists the failed constraints under
   * `detail`, and the text here stands in for that list.
   */
  const ValidationError: HttpError := HttpError(422, "Unprocessable Entity")

  /** A page that is consistent with the query that produced it and with the stored list. */
  predicate ConsistentPage(r: PaginatedTrades, stored: seq<Trade>, q: TradesQuery)
  {
    && r.total == |stored|
    && r.page == q.page
    && r.limit == q.limit
    && r.limit >= 1
    && r.totalPages == CeilDiv(r.total, r.limit)
    && |r.items| <= r.limit
  }

  /**
   * Index of the first trade of a page, `(page - 1) * limit`, written as the
   * end of the `page - 1` pages before it so that no multiplication enters
   * the proofs about pages; `PageStartIsProduct` gives the product form.
   */
  function PageStart(q: TradesQuery): nat
    requires QueryAccepted(q)
  {
    PagesEnd(q.limit, q.page - 1)
  }

  /** `n * limit`, the index just past the first `n` pages, by repeated addition. */
  function PagesEnd(limit: nat, n: nat): nat
  {
    if n == 0 then 0 else PagesEnd(limit, n - 1) + limit
  }

  lemma {:induction false} PagesEndIsProduct(limit: nat, n: nat)
    ensures PagesEnd(limit, n) == n * limit
  {
    if n > 0 {
      PagesEndIsProduct(limit, n - 1);
      assert n * limit == (n - 1) * limit + limit;
    }
  }

  /** The handler's `start_idx = (page - 1) * limit`. */
  lemma PageStartIsProduct(q: TradesQuery)
    requires QueryAccepted(q)
    ensures PageStart(q) == (q.page - 1) * q.limit
  {
    PagesEndIsProduct(q.limit, q.page - 1);
  }

  /**
   * `get_trades`: sort the stored trades by timestamp, then cut out page
   * `page` of size `limit`.
   */
  function GetTrades(stored: seq<Trade>, q: TradesQuery): (r: Result<PaginatedTrades, HttpError>)
    ensures r.Err? <==> !QueryAccepted(q)
    ensures r.Err? ==> r.error.status == 422
    ensures r.Ok? ==> r.value.total == |stored| && r.value.page == q.page && r.value.limit == q.limit
  {
    if !QueryAccepted(q) then Err(ValidationError) else Ok(Page(stored, q))
  }

  /** The handler's response to an accepted query. */
  function Page(stored: seq<Trade>, q: TradesQuery): PaginatedTrades
    requires QueryAccepted(q)
  {
    PaginatedTrades(
      Slice(SortByTimestamp(stored, Descending(q)), PageStart(q), PageStart(q) + q.limit),
      |stored|,
      q.page,
      q.limit,
      CeilDiv(|stored|, q.limit))
  }

  /** What a window of at most `limit` trades from the sorted list amounts to. */
  lemma WindowFacts(stored: seq<Trade>, sorted: seq<Trade>, start: nat, limit: int, descending: bool)
    requires limit >= 1
    requires SortedBy(sorted, descending) && |sorted| == |stored|
    ensures var items := Slice(sorted, start, start + limit);
      && |items| <= limit
      && (|items| == 0 <==> start >= |stored|)
      && SortedBy(items, descending)
  {
    SliceOfSorted(sorted, start, start + limit, descending);
  }

  /** An accepted query is answered with its page. */
  lemma GetTradesWindow(stored: seq<Trade>, q: TradesQuery)
    requires QueryAccepted(q)
    ensures GetTrades(stored, q) == Ok(Page(stored, q))
  {
  }

  /**
   * An accepted query yields a consistent page: at most `limit` stored
   * trades, ordered in the requested direction, none when the page starts
   * past the end, and a page count of `ceil(total / limit)`.
   */
  lemma GetTradesPage(stored: seq<Trade>, q: TradesQuery)
    requires QueryAccepted(q)
    ensures GetTrades(stored, q).Ok?
    ensures ConsistentPage(GetTrades(stored, q).value, stored, q)
    ensures SortedBy(GetTrades(stored, q).value.items, Descending(q))
    ensures |GetTrades(stored, q).value.items| == 0 <==> PageStart(q) >= |stored|
  {
    GetTradesWindow(stored, q);
    SortByTimestampSorted(stored, Descending(q));
    WindowFacts(stored, SortByTimestamp(stored, Descending(q)), PageStart(q), q.limit, Descending(q));
  }

  /** A slice of a sorted list is sorted. */
  lemma SliceOfSorted(s: seq<Trade>, lo: nat, hi: nat, descending: bool)
    requires SortedBy(s, descending)
    ensures SortedBy(Slice(s, lo, hi), descending)
  {
    var r := Slice(s, lo, hi);
    forall i, j | 0 <= i < j < |r|
      ensures !Before(r[j], r[i], descending)
    {
      assert r[i] == s[lo + i] && r[j] == s[lo + j];
    }
  }

  /** The first `n` pages of a query, concatenated. */
  function Pages(stored: seq<Trade>, q: TradesQuery, n: nat): seq<Trade>
    requires QueryAccepted(q)
  {
    if n == 0 then []
    else Pages(stored, q, n - 1) + Page(stored, q.(page := n)).items
  }

  /** Page `n` is the part of the sorted list between the ends of pages `n - 1` and `n`. */
  lemma PageIsSegment(stored: seq<Trade>, q: TradesQuery, n: nat)
    requires QueryAccepted(q) && n >= 1
    ensures var sorted := SortByTimestamp(stored, Descending(q));
      var prev := Min(PagesEnd(q.limit, n - 1), |sorted|);
      var next := Min(PagesEnd(q.limit, n), |sorted|);
      prev <= next && Page(stored, q.(page := n)).items == sorted[prev..next]
  {
  }

  /** The pages, read one after another, list the sorted trades from the first on. */
  lemma {:induction false} PagesArePrefix(stored: seq<Trade>, q: TradesQuery, n: nat)
    requires QueryAccepted(q)
    ensures var sorted := SortByTimestamp(stored, Descending(q));
      Pages(stored, q, n) == sorted[..Min(PagesEnd(q.limit, n), |sorted|)]
  {
    if n > 0 {
      var sorted := SortByTimestamp(stored, Descending(q));
      var prev := Min(PagesEnd(q.limit, n - 1), |sorted|);
      var next := Min(PagesEnd(q.limit, n), |sorted|);
      PagesArePrefix(stored, q, n - 1);
      PageIsSegment(stored, q, n);
      PrefixJoin(sorted, Pages(stored, q, n - 1), Page(stored, q.(page := n)).items, prev, next);
    }
  }

  /**
   * Only an omitted `sortOrder` or exactly `"desc"` sorts newest first; every
   * other value, `"asc"` or not, sorts oldest first. `sortBy` has no effect
   * on the response.
   */
  lemma SortOrderOnlyDescReverses(stored: seq<Trade>, q: TradesQuery, sortBy: Option<string>)
    ensures Descending(q) <==> q.sortOrder.None? || q.sortOrder == Some("desc")
    ensures q.sortOrder == Some("asc") ==> !Descending(q)
    ensures GetTrades(stored, q.(sortBy := sortBy)) == GetTrades(stored, q)
  {
  }

  /** A request with no parameters gets the ten most recent trades, newest first. */
  lemma BareRequestIsNewestTen(stored: seq<Trade>)
    ensures var q := ResolveQuery(RawTradesQuery(None, None, None, None));
      var sorted := SortByTimestamp(stored, true);
      && Descending(q)
      && GetTrades(stored, q).Ok?
      && GetTrades(stored, q).value.items == sorted[..Min(DefaultLimit, |sorted|)]
      && GetTrades(stored, q).value.page == 1
  {
    var q := ResolveQuery(RawTradesQuery(None, None, None, None));
    PagesArePrefix(stored, q, 1);
    assert q.(page := 1) == q;
    assert Pages(stored, q, 1) == Page(stored, q).items;
    GetTradesWindow(stored, q);
  }

  /** Enough pages list every stored trade exactly once, in sorted order. */
  lemma PagesCoverSorted(stored: seq<Trade>, q: TradesQuery, n: nat)
    requires QueryAccepted(q)
    requires n * q.limit >= |stored|
    ensures Pages(stored, q, n) == SortByTimestamp(stored, Descending(q))
    ensures multiset(Pages(stored, q, n)) == multiset(stored)
  {
    PagesEndIsProduct(q.limit, n);
    PagesArePrefix(stored, q, n);
    SortPermutes(stored, Descending(q));
  }

  /** Every page of a valid store holds only valid trades. */
  lemma GetTradesKeepsValidity(stored: seq<Trade>, q: TradesQuery)
    requires AllValidTrades(stored)
    ensures var r := GetTrades(stored, q); r.Ok? ==> AllValidTrades(r.value.items)
  {
    if QueryAccepted(q) {
      var sorted := SortByTimestamp(stored, Descending(q));
      SortKeepsValidity(stored, Descending(q));
      var w := Slice(sorted, PageStart(q), PageStart(q) + q.limit);
      GetTradesWindow(stored, q);
      forall k | 0 <= k < |w|
        ensures ValidTrade(w[k])
      {
        assert w[k] == sorted[PageStart(q) + k];
      }
    }
  }

  /** `get_trade`: the first trade with the id, or 404. */
  function GetTrade(stored: seq<Trade>, id: string): (r: Result<Trade, HttpError>)
    ensures r.Ok? ==> r.value.id == id
    ensures r.Ok? ==> exists i :: (0 <= i < |stored| && stored[i] == r.value
                                   && forall j :: 0 <= j < i ==> stored[j].id != id)
    ensures r.Err? <==> forall i :: 0 <= i < |stored| ==> stored[i].id != id
    ensures r.Err? ==> r.error.status == 404
  {
    match FirstIndex(stored, HasId(id))
    case None => Err(HttpError(404, "Trade not found"))
    case Some(i) => Ok(stored[i])
  }

  /**
   * `create_trade`: a body that violates the `TradeCreate` constraints is
   * rejected with 422; otherwise a pending trade with the fresh id and the
   * current time goes to the front of the list.
   */
  function CreateTrade(stored: seq<Trade>, body: TradeCreate, id: string, now: string)
    : (r: Result<Updated<seq<Trade>, Trade>, HttpError>)
    ensures r.Err? <==> !ValidTradeCreate(body)
    ensures r.Err? ==> r.error.status == 422
    ensures r.Ok? ==> && r.value.response.status == Pending
                      && r.value.response.id == id
                      && r.value.response.timestamp == now
                      && r.value.response.symbol == body.symbol
                      && r.value.response.side == body.side
                      && r.value.response.price == body.price
                      && r.value.response.quantity == body.quantity
                      && ValidTrade(r.value.response)
    ensures r.Ok? ==> |r.value.store| == |stored| + 1
    ensures r.Ok? ==> r.value.store[0] == r.value.response && r.value.store[1..] == stored
  {
    if !ValidTradeCreate(body) then Err(ValidationError)
    else
      var t := NewTrade(body, id, now);
      Ok(Updated([t] + stored, t))
  }

  /** A freshly created trade is what a lookup of its id returns. */
  lemma CreatedTradeIsFound(stored: seq<Trade>, body: TradeCreate, id: string, now: string)
    requires ValidTradeCreate(body)
    ensures var r := CreateTrade(stored, body, id, now);
      r.Ok? && GetTrade(r.value.store, id) == Ok(r.value.response)
  {
    var r := CreateTrade(stored, body, id, now);
    assert r.value.store[0].id == id;
  }

  /**
   * `cancel_trade`: 404 for an unknown id, 400 for a trade that is executed or
   * already cancelled, and otherwise the first trade with the id becomes
   * cancelled in place.
   */
  function CancelTrade(stored: seq<Trade>, id: string): (r: Result<Updated<seq<Trade>, Trade>, HttpError>)
    ensures GetTrade(stored, id).Err? ==> r == Err(HttpError(404, "Trade not found"))
    ensures GetTrade(stored, id).Ok? && GetTrade(stored, id).value.status == Executed ==>
      r == Err(HttpError(400, "Cannot cancel executed trade"))
    ensures GetTrade(stored, id).Ok? && GetTrade(stored, id).value.status == Cancelled ==>
      r == Err(HttpError(400, "Trade is already cancelled"))
    ensures r.Ok? <==> GetTrade(stored, id).Ok? && GetTrade(stored, id).value.status == Pending
    ensures r.Ok? ==> && FirstIndex(stored, HasId(id)).Some?
                      && var i := FirstIndex(stored, HasId(id)).value;
                      && r.value.response == stored[i].(status := Cancelled)
                      && r.value.store == stored[i := r.value.response]
  {
    match FirstIndex(stored, HasId(id))
    case None =>
      assert GetTrade(stored, id).Err?;
      Err(HttpError(404, "Trade not found"))
    case Some(i) =>
      var t := stored[i];
      assert GetTrade(stored, id) == Ok(t);
      if t.status == Executed then Err(HttpError(400, "Cannot cancel executed trade"))
      else if t.status == Cancelled then Err(HttpError(400, "Trade is already cancelled"))
      else
        var c := t.(status := Cancelled);
        assert t.status == Pending;
        assert GetTrade(stored, id).value.status == Pending;
        Ok(Updated(stored[i := c], c))
  }

  /** Cancelling is not idempotent: a second cancel of the same id is refused with 400. */
  lemma CancelTwiceRefused(stored: seq<Trade>, id: string)
    requires CancelTrade(stored, id).Ok?
    ensures CancelTrade(CancelTrade(stored, id).value.store, id) == Err(HttpError(400, "Trade is already cancelled"))
  {
    var i := FirstIndex(stored, HasId(id)).value;
    var after := CancelTrade(stored, id).value.store;
    assert after[i].id == id;
    assert forall j :: 0 <= j < i ==> after[j] == stored[j];
    assert FirstIndex(after, HasId(id)) == Some(i);
  }

  /** Cancelling keeps every stored trade valid. */
  lemma CancelKeepsValidity(stored: seq<Trade>, id: string)
    requires AllValidTrades(stored)
    ensures var r := CancelTrade(stored, id); r.Ok? ==> AllValidTrades(r.value.store)
  {
  }
}

=== FILE: trading_store.dfy ===
/**
 * The browser's trading store. Its state is one record; each asynchronous
 * action is a pure function of the state it starts from and the settled
 * outcome of the service call it makes, giving the state once the action has
 * finished (and, for the actions that rethrow, what the caller receives).
 * Every action first clears the error and raises the loading flag, and
 * lowers the loading flag again however the call ends.
 */
module TradingStore {
  import opened Common
  import opened Models
  import TradesRouter
  import PositionsRouter

  /** The query the store sends with a trade-list request (`PaginationParams`). */
  type PaginationParams = TradesRouter.TradesQuery

  datatype TradingState = TradingState(
    trades: seq<Trade>,
    positions: seq<Position>,
    currentTrade: Option<Trade>,
    loading: bool,
    error: Option<string>,
    currentPage: int,
    pageSize: int,
    totalTrades: int)

  /** The state a new store starts in. */
  const Initial: TradingState := TradingState([], [], None, false, None, 1, 10, 0)

  /** The page size is positive; no action ever writes it. */
  predicate Valid(s: TradingState)
  {
    s.pageSize >= 1
  }

  /** Everything but the loading flag and the error text is the same. */
  predicate SameData(a: TradingState, b: TradingState)
  {
    && a.trades == b.trades
    && a.positions == b.positions
    && a.currentTrade == b.currentTrade
    && a.currentPage == b.currentPage
    && a.pageSize == b.pageSize
    && a.totalTrades == b.totalTrades
  }

  /** What every action does before its service call: loading on, error cleared. */
  function Start(s: TradingState): (r: TradingState)
    ensures r.loading && r.error.None? && SameData(r, s)
  {
    s.(loading := true, error := None)
  }

  /** The `catch` branch: the failure's message, or the action's own text when it has none. */
  function Fail(s: TradingState, f: Failure, fallback: string): (r: TradingState)
    requires fallback != ""
    ensures !r.loading && r.error.Some? && r.error.value != "" && SameData(r, s)
    ensures r.error.value == ErrorText(f.message, fallback)
  {
    Start(s).(loading := false, error := Some(ErrorText(f.message, fallback)))
  }

  /** `totalPages`: the number of pages of `pageSize` trades needed for `totalTrades`. */
  function TotalPages(s: TradingState): (r: int)
    requires Valid(s)
    ensures (r - 1) * s.pageSize < s.totalTrades <= r * s.pageSize
  {
    CeilDivBounds(s.totalTrades, s.pageSize);
    CeilDiv(s.totalTrades, s.pageSize)
  }

  /** `totalPages` is the least page count whose pages hold all the trades. */
  lemma TotalPagesIsCeiling(s: TradingState)
    requires Valid(s)
    ensures (TotalPages(s) - 1) * s.pageSize < s.totalTrades <= TotalPages(s) * s.pageSize
    ensures s.totalTrades >= 0 ==> TotalPages(s) >= 0
    ensures s.totalTrades == 0 ==> TotalPages(s) == 0
  {
    CeilDivBounds(s.totalTrades, s.pageSize);
  }

  /** `hasPositions`. */
  function HasPositions(s: TradingState): (r: bool)
    ensures r <==> s.positions != []
  {
    |s.positions| > 0
  }

  /** The sum of the positions' unrealized P&L. With exact reals the order of the additions does not matter. */
  function SumPnL(ps: seq<Position>): real
  {
    if |ps| == 0 then 0.0 else ps[0].unrealizedPnL + SumPnL(ps[1..])
  }

  /** `positions.reduce((sum, pos) => sum + pos.unrealizedPnL, 0)`: a left fold, last position added last. */
  function ReducePnL(ps: seq<Position>): real
  {
    if |ps| == 0 then 0.0 else ReducePnL(ps[..|ps| - 1]) + ps[|ps| - 1].unrealizedPnL
  }

  /** Adding one more position at the end adds its P&L to the sum. */
  lemma {:induction false} SumPnLSnoc(ps: seq<Position>, p: Position)
    ensures SumPnL(ps + [p]) == SumPnL(ps) + p.unrealizedPnL
    decreases |ps|
  {
    if |ps| > 0 {
      SumPnLSnoc(ps[1..], p);
      assert (ps + [p])[1..] == ps[1..] + [p];
    }
  }

  /** The left fold and the sum from the front agree: the additions are exact. */
  lemma {:induction false} ReducePnLIsSum(ps: seq<Position>)
    ensures ReducePnL(ps) == SumPnL(ps)
    decreases |ps|
  {
    if |ps| > 0 {
      var init := ps[..|ps| - 1];
      ReducePnLIsSum(init);
      SumPnLSnoc(init, ps[|ps| - 1]);
      assert init + [ps[|ps| - 1]] == ps;
    }
  }

  /** `totalUnrealizedPnL`: the P&L of all positions. */
  function TotalUnrealizedPnL(s: TradingState): (r: real)
    ensures r == SumPnL(s.positions)
  {
    ReducePnLIsSum(s.positions);
    ReducePnL(s.positions)
  }

  /** The P&L of a list is that of the positions without a symbol plus that of the positions with it. */
  lemma {:induction false} SumPnLPartition(ps: seq<Position>, symbol: string)
    ensures SumPnL(ps) == SumPnL(Filter(ps, LacksSymbol(symbol))) + SumPnL(Filter(ps, HasSymbol(symbol)))
    decreases |ps|
  {
    if |ps| > 0 {
      var t := ps[1..];
      SumPnLPartition(t, symbol);
      var keep := Filter(t, LacksSymbol(symbol));
      var drop := Filter(t, HasSymbol(symbol));
      if ps[0].symbol == symbol {
        assert Filter(ps, HasSymbol(symbol)) == [ps[0]] + drop;
        assert ([ps[0]] + drop)[1..] == drop;
      } else {
        assert Filter(ps, LacksSymbol(symbol)) == [ps[0]] + keep;
        assert ([ps[0]] + keep)[1..] == keep;
      }
    }
  }

  /** The parameters `fetchTrades` requests with: the given ones, else the current page at the page size. */
  function FetchTradesParams(s: TradingState, params: Option<PaginationParams>): (r: PaginationParams)
    ensures params.Some? ==> r == params.value
    ensures params.None? ==> r.page == s.currentPage && r.limit == s.pageSize && r.sortBy.None? && r.sortOrder.None?
  {
    match params
    case Some(p) => p
    case None => TradesRouter.TradesQuery(s.currentPage, s.pageSize, None, None)
  }

  /**
   * `fetchTrades`: on success the list, the total and the current page are
   * overwritten from the response; on failure they stay and only the error
   * is set. The error is not rethrown.
   */
  function FetchTrades(s: TradingState, outcome: Reply<PaginatedTrades>): (r: TradingState)
    ensures !r.loading && r.pageSize == s.pageSize
    ensures r.positions == s.positions && r.currentTrade == s.currentTrade
    ensures outcome.Ok? ==> && r.error.None?
                            && r.trades == outcome.value.items
                            && r.totalTrades == outcome.value.total
                            && r.currentPage == outcome.value.page
    ensures outcome.Err? ==> SameData(r, s) && r.error.Some?
    ensures outcome.Err? ==> r.error == Some(ErrorText(outcome.error.message, "Failed to fetch trades"))
  {
    var started := Start(s);
    match outcome
    case Ok(resp) =>
      started.(trades := resp.items, totalTrades := resp.total, currentPage := resp.page, loading := false)
    case Err(f) => Fail(started, f, "Failed to fetch trades")
  }

  /**
   * When the backend answers the request `fetchTrades` makes without
   * parameters, the store holds that page of the backend's sorted trades, and
   * the store's page count is the backend's.
   */
  lemma FetchTradesMirrorsBackend(s: TradingState, stored: seq<Trade>)
    requires Valid(s) && s.pageSize <= 100 && s.currentPage >= 1
    ensures var q := FetchTradesParams(s, None);
      var reply := TradesRouter.GetTrades(stored, q);
      var r := FetchTrades(s, Result.Ok(reply.value));
      && reply.Ok?
      && r.currentPage == s.currentPage
      && r.totalTrades == |stored|
      && Valid(r)
      && TotalPages(r) == reply.value.totalPages
      && |r.trades| <= s.pageSize
  {
    var q := FetchTradesParams(s, None);
    TradesRouter.GetTradesPage(stored, q);
  }

  /**
   * The failure the browser sees when the backend answers with an HTTP
   * error: its status, and the message the HTTP client attaches, which is a
   * parameter because the client is not part of this model.
   */
  function Rejection(e: HttpError, message: Option<string>): (f: Failure)
    ensures f.status == Some(e.status) && f.message == message
  {
    Failure(message, Some(e.status))
  }

  /** `fetchTrade`: the fetched trade becomes the current one; a failure leaves the slot as it was. */
  function FetchTrade(s: TradingState, outcome: Reply<Trade>): (r: TradingState)
    ensures !r.loading
    ensures outcome.Ok? ==> r.currentTrade == Some(outcome.value) && r.error.None?
                            && r == s.(currentTrade := r.currentTrade, loading := false, error := None)
    ensures outcome.Err? ==> SameData(r, s) && r.error.Some?
    ensures outcome.Err? ==> r.error == Some(ErrorText(outcome.error.message, "Failed to fetch trade"))
  {
    var started := Start(s);
    match outcome
    case Ok(t) => started.(currentTrade := Some(t), loading := false)
    case Err(f) => Fail(started, f, "Failed to fetch trade")
  }

  /**
   * Fetching a trade the backend holds makes the first stored trade with that
   * id the current one; when the backend refuses, whatever was current stays.
   */
  lemma FetchTradeMirrorsBackend(s: TradingState, stored: seq<Trade>, id: string, message: Option<string>)
    ensures var reply := TradesRouter.GetTrade(stored, id);
      reply.Ok? ==> var r := FetchTrade(s, Result.Ok(reply.value));
        && r.currentTrade.Some?
        && r.currentTrade.value.id == id
        && r.currentTrade.value == stored[FirstIndex(stored, HasId(id)).value]
    ensures var reply := TradesRouter.GetTrade(stored, id);
      reply.Err? ==> var f := Rejection(reply.error, message);
        var r := FetchTrade(s, Result.Err(f));
        && f.status == Some(404)
        && r.currentTrade == s.currentTrade
        && r.error == Some(ErrorText(message, "Failed to fetch trade"))
  {
  }

  /**
   * `createTrade`: the created trade goes to the front of the list and is
   * returned; a failure leaves the list alone, sets the error and is rethrown.
   */
  function CreateTrade(s: TradingState, outcome: Reply<Trade>): (r: Updated<TradingState, Reply<Trade>>)
    ensures !r.store.loading && r.response == outcome
    ensures outcome.Ok? ==> && |r.store.trades| == |s.trades| + 1
                            && r.store.trades[0] == outcome.value
                            && r.store.trades[1..] == s.trades
                            && r.store.error.None?
                            && r.store == s.(trades := r.store.trades, loading := false, error := None)
    ensures outcome.Err? ==> SameData(r.store, s) && r.store.error.Some?
    ensures outcome.Err? ==> r.store.error == Some(ErrorText(outcome.error.message, "Failed to create trade"))
  {
    var started := Start(s);
    match outcome
    case Ok(t) => Updated(started.(trades := [t] + s.trades, loading := false), outcome)
    case Err(f) => Updated(Fail(started, f, "Failed to create trade"), outcome)
  }

  /** A store that shows the backend's whole list still shows it after a trade is created there. */
  lemma CreateTradeKeepsMirror(s: TradingState, body: TradeCreate, id: string, now: string)
    requires ValidTradeCreate(body)
    ensures var backend := TradesRouter.CreateTrade(s.trades, body, id, now);
      backend.Ok? && CreateTrade(s, Result.Ok(backend.value.response)).store.trades == backend.value.store
  {
  }

  /**
   * The store holds one page of the backend's sorted list, not the whole
   * list, and `createTrade` only puts the new trade in front of that page.
   * After the first page is fetched and a trade is created, the store shows
   * the old page behind the new trade and keeps the old total. So when that
   * page was full, the store lists `pageSize + 1` trades, while the
   * backend's first page still holds `pageSize` and counts one trade more.
   */
  lemma CreateAfterFetchDiverges(s: TradingState, stored: seq<Trade>, body: TradeCreate, id: string, now: string)
    requires Valid(s) && s.pageSize <= 100 && s.currentPage == 1
    requires ValidTradeCreate(body)
    ensures var q := FetchTradesParams(s, None);
      var shown := FetchTrades(s, Result.Ok(TradesRouter.GetTrades(stored, q).value));
      var backend := TradesRouter.CreateTrade(stored, body, id, now);
      var after := CreateTrade(shown, Result.Ok(backend.value.response)).store;
      var backendPage := TradesRouter.GetTrades(backend.value.store, q).value;
      && after.trades == [backend.value.response] + shown.trades
      && |after.trades| == Min(|stored|, s.pageSize) + 1
      && after.totalTrades == |stored|
      && backendPage.total == |stored| + 1
      && |backendPage.items| == Min(|stored| + 1, s.pageSize)
      && (|stored| >= s.pageSize ==> |after.trades| == |backendPage.items| + 1)
  {
  }

  /**
   * `cancelTrade`: the returned trade replaces the first one with the id,
   * if there is one; a failure leaves the list alone, sets the error and is
   * rethrown.
   */
  function CancelTrade(s: TradingState, id: string, outcome: Reply<Trade>): (r: Updated<TradingState, Reply<Trade>>)
    ensures !r.store.loading && r.response == outcome
    ensures outcome.Ok? ==> && |r.store.trades| == |s.trades|
                            && r.store.error.None?
                            && r.store == s.(trades := r.store.trades, loading := false, error := None)
    ensures outcome.Ok? && FirstIndex(s.trades, HasId(id)).Some? ==>
      var i := FirstIndex(s.trades, HasId(id)).value;
      && r.store.trades[i] == outcome.value
      && forall k :: 0 <= k < |s.trades| && k != i ==> r.store.trades[k] == s.trades[k]
    ensures outcome.Ok? && FirstIndex(s.trades, HasId(id)).None? ==> r.store.trades == s.trades
    ensures outcome.Err? ==> SameData(r.store, s) && r.store.error.Some?
    ensures outcome.Err? ==> r.store.error == Some(ErrorText(outcome.error.message, "Failed to cancel trade"))
  {
    var started := Start(s);
    match outcome
    case Ok(c) =>
      var trades := match FirstIndex(s.trades, HasId(id))
        case None => s.trades
        case Some(i) => s.trades[i := c];
      Updated(started.(trades := trades, loading := false), outcome)
    case Err(f) => Updated(Fail(started, f, "Failed to cancel trade"), outcome)
  }

  /** A store that shows the backend's whole list still shows it after a trade is cancelled there. */
  lemma CancelTradeKeepsMirror(s: TradingState, id: string)
    requires TradesRouter.CancelTrade(s.trades, id).Ok?
    ensures var backend := TradesRouter.CancelTrade(s.trades, id);
      CancelTrade(s, id, Result.Ok(backend.value.response)).store.trades == backend.value.store
  {
  }

  /** `fetchPositions`: the fetched list replaces the store's; a failure leaves it as it was. */
  function FetchPositions(s: TradingState, outcome: Reply<seq<Position>>): (r: TradingState)
    ensures !r.loading
    ensures outcome.Ok? ==> r.positions == outcome.value && r.error.None?
                            && r == s.(positions := r.positions, loading := false, error := None)
    ensures outcome.Err? ==> SameData(r, s) && r.error.Some?
    ensures outcome.Err? ==> r.error == Some(ErrorText(outcome.error.message, "Failed to fetch positions"))
  {
    var started := Start(s);
    match outcome
    case Ok(ps) => started.(positions := ps, loading := false)
    case Err(f) => Fail(started, f, "Failed to fetch positions")
  }

  /**
   * Fetching from the backend shows its list exactly, so `hasPositions` and
   * the P&L total are those of the backend's positions.
   */
  lemma FetchPositionsMirrorsBackend(s: TradingState, stored: seq<Position>)
    ensures var r := FetchPositions(s, Result.Ok(PositionsRouter.GetPositions(stored)));
      && r.positions == stored
      && (HasPositions(r) <==> |stored| > 0)
      && TotalUnrealizedPnL(r) == SumPnL(stored)
  {
  }

  /**
   * `closePosition`: once the backend confirms, every position with the
   * symbol leaves the list and the others keep their order; a failure leaves
   * the list alone, sets the error and is rethrown.
   */
  function ClosePosition(s: TradingState, symbol: string, outcome: Reply<Position>): (r: Updated<TradingState, Reply<Position>>)
    ensures !r.store.loading && r.response == outcome
    ensures outcome.Ok? ==> && r.store.positions == Filter(s.positions, LacksSymbol(symbol))
                            && (forall i :: 0 <= i < |r.store.positions| ==> r.store.positions[i].symbol != symbol)
                            && r.store.error.None?
                            && r.store == s.(positions := r.store.positions, loading := false, error := None)
    ensures outcome.Err? ==> SameData(r.store, s) && r.store.error.Some?
    ensures outcome.Err? ==> r.store.error == Some(ErrorText(outcome.error.message, "Failed to close position"))
  {
    var started := Start(s);
    match outcome
    case Ok(_) => Updated(started.(positions := Filter(s.positions, LacksSymbol(symbol)), loading := false), outcome)
    case Err(f) => Updated(Fail(started, f, "Failed to close position"), outcome)
  }

  /** Closing lowers the total unrealized P&L by exactly the P&L of the positions removed. */
  lemma ClosePositionPnL(s: TradingState, symbol: string, closed: Position)
    ensures var r := ClosePosition(s, symbol, Result.Ok(closed)).store;
      TotalUnrealizedPnL(r) == TotalUnrealizedPnL(s) - SumPnL(Filter(s.positions, HasSymbol(symbol)))
  {
    SumPnLPartition(s.positions, symbol);
  }

  /** After a close, the store has positions exactly when some position had another symbol. */
  lemma ClosePositionHasPositions(s: TradingState, symbol: string, closed: Position)
    ensures var r := ClosePosition(s, symbol, Result.Ok(closed)).store;
      HasPositions(r) <==> exists i :: 0 <= i < |s.positions| && s.positions[i].symbol != symbol
  {
    var r := ClosePosition(s, symbol, Result.Ok(closed)).store;
    FilterMembers(s.positions, LacksSymbol(symbol));
    if exists i :: 0 <= i < |s.positions| && s.positions[i].symbol != symbol {
      var i :| 0 <= i < |s.positions| && s.positions[i].symbol != symbol;
      assert s.positions[i] in r.positions;
    }
    if HasPositions(r) {
      var x := r.positions[0];
      assert x in s.positions;
      var k :| 0 <= k < |s.positions| && s.positions[k] == x;
      assert s.positions[k].symbol != symbol;
    }
  }

  /**
   * The store drops every position with the symbol while the backend drops
   * only the first, so the two lists agree afterwards exactly when the
   * symbol was held once.
   */
  lemma ClosePositionMirrorsBackend(s: TradingState, symbol: string)
    requires PositionsRouter.GetPosition(s.positions, symbol).Ok?
    ensures var backend := PositionsRouter.ClosePosition(s.positions, symbol);
      var front := ClosePosition(s, symbol, Result.Ok(backend.value.response)).store;
      Count(s.positions, HasSymbol(symbol)) == 1 <==> front.positions == backend.value.store
  {
    if Count(s.positions, HasSymbol(symbol)) == 1 {
      CloseOnlyMatchAgrees(s, symbol);
    } else {
      CloseRepeatedMatchDisagrees(s, symbol);
    }
  }

  lemma CloseOnlyMatchAgrees(s: TradingState, symbol: string)
    requires PositionsRouter.GetPosition(s.positions, symbol).Ok?
    requires Count(s.positions, HasSymbol(symbol)) == 1
    ensures var backend := PositionsRouter.ClosePosition(s.positions, symbol);
      ClosePosition(s, symbol, Result.Ok(backend.value.response)).store.positions == backend.value.store
  {
    PositionsRouter.ClosePositionRemovesFirstMatch(s.positions, symbol);
    var i := FirstIndex(s.positions, HasSymbol(symbol)).value;
    FilterWithoutOnlyMatch(s.positions, symbol, i);
  }

  lemma CloseRepeatedMatchDisagrees(s: TradingState, symbol: string)
    requires PositionsRouter.GetPosition(s.positions, symbol).Ok?
    requires Count(s.positions, HasSymbol(symbol)) != 1
    ensures var backend := PositionsRouter.ClosePosition(s.positions, symbol);
      ClosePosition(s, symbol, Result.Ok(backend.value.response)).store.positions != backend.value.store
  {
    var backend := PositionsRouter.ClosePosition(s.positions, symbol);
    var front := ClosePosition(s, symbol, Result.Ok(backend.value.response)).store;
    PositionsRouter.CloseThenLookup(s.positions, symbol);
    assert Count(front.positions, HasSymbol(symbol)) == 0;
    assert Count(front.positions, HasSymbol(symbol)) != Count(backend.value.store, HasSymbol(symbol));
  }

  /** When only index `i` holds the symbol, filtering the symbol out is removing index `i`. */
  lemma FilterWithoutOnlyMatch(ps: seq<Position>, symbol: string, i: nat)
    requires i < |ps| && ps[i].symbol == symbol && Count(ps, HasSymbol(symbol)) == 1
    ensures Filter(ps, LacksSymbol(symbol)) == ps[..i] + ps[i + 1..]
  {
    var a := ps[..i];
    var b := ps[i + 1..];
    SplitAt(ps, i);
    OnlyMatchSides(ps, symbol, i);
    NoneMatchFilterAll(a, symbol);
    DropMatchThenKeep(ps[i], b, symbol);
    FilterAppend(a, [ps[i]] + b, LacksSymbol(symbol));
  }

  /** The positions before and after the only holding of the symbol hold none of it. */
  lemma OnlyMatchSides(ps: seq<Position>, symbol: string, i: nat)
    requires i < |ps| && ps[i].symbol == symbol && Count(ps, HasSymbol(symbol)) == 1
    ensures Count(ps[..i], HasSymbol(symbol)) == 0 && Count(ps[i + 1..], HasSymbol(symbol)) == 0
  {
    CountRemoveAt(ps, i, HasSymbol(symbol));
    CountAppend(ps[..i], ps[i + 1..], HasSymbol(symbol));
  }

  /** A holding of the symbol in front of a list without it is all the filter drops. */
  lemma DropMatchThenKeep(p: Position, b: seq<Position>, symbol: string)
    requires p.symbol == symbol && Count(b, HasSymbol(symbol)) == 0
    ensures Filter([p] + b, LacksSymbol(symbol)) == b
  {
    NoneMatchFilterAll(b, symbol);
    assert ([p] + b)[1..] == b;
  }

  /** A list with no position of the symbol passes the filter unchanged. */
  lemma NoneMatchFilterAll(ps: seq<Position>, symbol: string)
    requires Count(ps, HasSymbol(symbol)) == 0
    ensures Filter(ps, LacksSymbol(symbol)) == ps
  {
    assert forall j :: 0 <= j < |ps| ==> !HasSymbol(symbol)(ps[j]);
    FilterAll(ps, LacksSymbol(symbol));
  }

  /**
   * `setPage`: the page is recorded and the trades are fetched with the
   * default parameters, which therefore ask for that page at the page size.
   */
  function SetPage(s: TradingState, page: int, outcome: Reply<PaginatedTrades>): (r: Updated<TradingState, PaginationParams>)
    ensures r.response.page == page && r.response.limit == s.pageSize
    ensures r.response.sortBy.None? && r.response.sortOrder.None?
    ensures outcome.Err? ==> r.store.currentPage == page && r.store.trades == s.trades && r.store.error.Some?
    ensures outcome.Ok? ==> r.store.trades == outcome.value.items && r.store.currentPage == outcome.value.page
  {
    var moved := s.(currentPage := page);
    Updated(FetchTrades(moved, outcome), FetchTradesParams(moved, None))
  }

  /**
   * Paging against the backend: the request asks for page `page` at the page
   * size. An accepted page is shown with the backend's total and page count;
   * a page below 1 is refused by the backend, and the store keeps the page
   * it recorded with an error set.
   */
  lemma SetPageMirrorsBackend(s: TradingState, stored: seq<Trade>, page: int, message: Option<string>)
    requires Valid(s) && s.pageSize <= 100
    ensures var q := TradesRouter.TradesQuery(page, s.pageSize, None, None);
      var reply := TradesRouter.GetTrades(stored, q);
      && (reply.Ok? <==> page >= 1)
      && (reply.Ok? ==>
            var r := SetPage(s, page, Result.Ok(reply.value)).store;
            && SetPage(s, page, Result.Ok(reply.value)).response == q
            && r.currentPage == page
            && r.totalTrades == |stored|
            && TotalPages(r) == reply.value.totalPages
            && |r.trades| <= s.pageSize)
      && (reply.Err? ==>
            var f := Rejection(reply.error, message);
            var r := SetPage(s, page, Result.Err(f)).store;
            && f.status == Some(422)
            && SetPage(s, page, Result.Err(f)).response == q
            && r.currentPage == page
            && r.error == Some(ErrorText(message, "Failed to fetch trades"))
            && r.trades == s.trades)
  {
    var q := TradesRouter.TradesQuery(page, s.pageSize, None, None);
    if page >= 1 {
      TradesRouter.GetTradesPage(stored, q);
    }
  }

  /** `clearError`. */
  function ClearError(s: TradingState): (r: TradingState)
    ensures r.error.None? && r.loading == s.loading && SameData(r, s)
  {
    s.(error := None)
  }
}
